=== FILE: README.md ===
# EdgarSearch text core in Dafny

EdgarSearch.py downloads 10-K filings from SEC EDGAR. It cuts out the
"Management's Discussion and Analysis" section (Item 7, the MD&A) and counts
keywords in that section or in the whole filing. This project models the part
of the program that only processes text:

- **Normalizer** (`normalize_text`). The program collapses whitespace around
  line breaks, repairs item headings and symbols that were wrapped across
  lines, and doubles every newline. The Unicode-dependent first steps are one
  function parameter: NFKD normalisation, `splitlines`, and `upper`.
- **Locator** (`parse_mda` and the retry in `extract_mda`). It searches for an
  ordered list of start and end headings, slices the section, and strips it.
  A non-empty first section under 1000 bytes of UTF-8 (`Locator.Utf8Length`)
  triggers one second search, and that second result replaces the first one.
- **Counter** (`count_words`, `count_words_sentence`, and the total word
  count). One counter counts exact tokens of `split()`. The other counts the
  period- or newline-delimited segments that contain the keyword.
- **Records** covers the output rows and the file names behind them:
  - fixed-width index rows cut into record fields (`parse_row_to_record`);
  - the scan of an index file for 10-K rows;
  - the name a filing is stored under, and the parse of that name back into
    its fields;
  - the header and data rows of both keyword tables;
  - the keyword list given on the command line.
- **PyStr** defines the Python `str` operations the program relies on, over
  `seq<char>`:
  - `find` with a start index;
  - leftmost non-overlapping `replace`;
  - `split()` on the `isspace` set, and `split(sep)`;
  - `join`, `strip`, `rstrip`, `strip(chars)`;
  - slicing with negative and out-of-range bounds.

The functions `unicodeHead`, `lower` and `upper` stand for the Unicode
case-mapping and normalisation tables. All results are stated for every
possible such function.

Three behaviours of the code worth knowing:

- Normalisation is not idempotent. The text `"\n.\n.\nY"` normalises to
  `".\n\n.\n\nY"`, and normalising that again gives `"..\n\nY"`: the
  heading repair at line 309 joins only the first of two overlapping period
  lines per pass (`Normalizer.NormalizeNotIdempotent` for lines 304-322).
  NFKD, `splitlines` joined by newlines, and `upper` leave both texts
  unchanged, so `normalize_text` as a whole is not idempotent either
  (`Normalizer.NormalizeTwiceDiffers`). The whitespace collapse alone is
  idempotent (`Normalizer.CollapseWhitespaceIdempotent`).
- The second search replaces the first section whatever it finds, including
  nothing (`Locator.RetryMayDiscard`).
- A stored path with fewer than three `_` makes the parse at lines 190-194
  raise an exception, which stops the whole run rather than skipping that
  file. The table functions therefore give `None` for the whole table when
  any path does not parse. They are built on the corrected file-name parse
  (see "## Findings"); `Records.ParseAgrees` states when it agrees with the
  parse as written.

## Model

| member | source | states |
|---|---|---|
| PyStr.Find | EdgarSearch.py:361 | `str.find` from a start index returns the first index at or after it where the pattern occurs, or -1 when none does |
| PyStr.Replace | EdgarSearch.py:309-322 | `str.replace` leaves a text in which the pattern does not occur unchanged |
| PyStr.ReplaceCharMap | EdgarSearch.py:339 | replacing "\n" by "." maps every newline to a period and keeps every other character in place |
| PyStr.ReplaceCharCount | EdgarSearch.py:339 | after replacing "\n" by ".", no newline is left and the number of periods grows by the number of newlines |
| PyStr.ReplaceCharKeepsOccurrence | EdgarSearch.py:339 | an occurrence of a keyword without newlines survives the newline-to-period replacement at the same index |
| PyStr.ReplaceMissing | EdgarSearch.py:309-319 | a pattern holding a character the text lacks never occurs, so `str.replace` returns the text unchanged |
| PyStr.StartsWithDiffer | EdgarSearch.py:114-121 | a text starting with one prefix does not start with another prefix that differs from it at some position both reach |
| PyStr.ReplaceDropChar | EdgarSearch.py:154 | deleting a character removes every copy of it and introduces no new character |
| PyStr.ReplaceDropWithout | EdgarSearch.py:154 | replacing a character by nothing keeps every other character, in order |
| PyStr.SplitAtSpace | EdgarSearch.py:225 | `split()` breaks the text at every whitespace character: the tokens of `a` followed by a whitespace character and `b` are the tokens of `a`, then those of `b`, whatever whitespace surrounds the break |
| PyStr.SplitWord | EdgarSearch.py:225 | a non-empty text without whitespace is one token, itself |
| PyStr.Split | EdgarSearch.py:225 | every token `split()` yields is non-empty and holds no whitespace |
| PyStr.SplitJoinRoundTrip | EdgarSearch.py:329 | splitting space-joined non-empty whitespace-free words returns exactly those words |
| PyStr.SplitOn | EdgarSearch.py:340 | `split(sep)` yields at least one piece, and no piece contains the separator |
| PyStr.SplitOnCount | EdgarSearch.py:340 | `split(sep)` yields one more piece than the text has separators |
| PyStr.JoinSplitOn | EdgarSearch.py:340 | joining the pieces of `split(sep)` with the separator gives back the text |
| PyStr.SplitOnJoin | EdgarSearch.py:340 | splitting a join of separator-free pieces gives back the pieces |
| PyStr.SplitOnPrefix | EdgarSearch.py:190 | a prefix without the separator, such as a directory without `_`, becomes part of the first piece and leaves the other pieces alone |
| PyStr.SplitOnAtSep | EdgarSearch.py:340 | a separator between two texts splits exactly there: the pieces are those of the first text followed by those of the second |
| PyStr.SplitOnKeepsOccurrence | EdgarSearch.py:340-343 | a separator-free pattern that occurs in the text occurs inside one of the pieces |
| PyStr.StripBy | EdgarSearch.py:45 | `strip(chars)` removes exactly the maximal runs of stripped characters at both ends and keeps the middle as a contiguous slice |
| PyStr.RStripBy | EdgarSearch.py:44 | `rstrip()` keeps a prefix of the text and removes exactly the maximal trailing run of whitespace |
| PyStr.StripLead | EdgarSearch.py:378 | stripping whitespace in front of a text that begins and ends with non-whitespace gives that text |
| PyStr.Slice | EdgarSearch.py:192-194 | a Python slice agrees with the plain sub-sequence for in-range bounds, clamps an end past the text, and counts a negative end from the back |
| Normalizer.CollapseWhitespace | EdgarSearch.py:304-306 | after the three regex collapses, no space touches a newline and no two newlines are adjacent |
| Normalizer.DropSpacesBeforeNewlineFixed | EdgarSearch.py:304 | text in which no space precedes a newline is unchanged by the `[ ]+\n` collapse |
| Normalizer.DropSpacesAfterNewlineFixed | EdgarSearch.py:305 | text in which no space follows a newline is unchanged by the `\n[ ]+` collapse |
| Normalizer.CollapseNewlinesFixed | EdgarSearch.py:306 | text without adjacent newlines is unchanged by the newline-run collapse |
| Normalizer.CollapseWhitespaceFixed | EdgarSearch.py:304-306 | tidy text is a fixed point of the three whitespace collapses |
| Normalizer.CollapseWhitespaceIdempotent | EdgarSearch.py:304-306 | applying the three whitespace collapses twice gives the same text as applying them once |
| Normalizer.DropSpacesBeforeNewlineShape | EdgarSearch.py:304 | after `[ ]+\n` is replaced by a newline, no space precedes a newline |
| Normalizer.DropSpacesAfterNewlineShape | EdgarSearch.py:305 | after `\n[ ]+` is replaced by a newline, no space follows a newline, and the previous step's result still holds |
| Normalizer.CollapseNewlinesShape | EdgarSearch.py:306 | after runs of newlines are collapsed, no two newlines are adjacent, and the space rules still hold |
| Normalizer.RepairHeadings | EdgarSearch.py:309-313 | the heading repairs keep the tidy whitespace shape |
| Normalizer.RepairHeadingsShape | EdgarSearch.py:309-313 | the chain of four heading replacements applied to tidy text gives tidy text |
| Normalizer.ReplacePair | EdgarSearch.py:309-322 | one `replace` whose replacement edges cannot meet a given character pair keeps that pair out of the result |
| Normalizer.KeepTidy | EdgarSearch.py:309-319 | a replacement whose replacement text has compatible ends keeps tidy text tidy |
| Normalizer.RepairSymbols | EdgarSearch.py:315-319 | on tidy text, as lines 304-313 produce, after the symbol repairs no colon, dollar sign or space ends a line, and no percent sign or space starts one |
| Normalizer.RepairSymbolsShape | EdgarSearch.py:315-319 | the chain of three symbol replacements applied to tidy text removes ":\n", "$\n" and "\n%" |
| Normalizer.DoubleNewlines | EdgarSearch.py:322 | doubling newlines keeps the stray-break rules, and turns text without adjacent newlines into text whose newline runs all have length two |
| Normalizer.DoubleKeepsNoStrayBreaks | EdgarSearch.py:322 | doubling every newline introduces none of the forbidden pairs |
| Normalizer.DoubleNewlinesShape | EdgarSearch.py:322 | doubling newlines in text without adjacent newlines makes every maximal run of newlines exactly two long |
| Normalizer.PairedConcat | EdgarSearch.py:322 | two texts with paired newlines that do not meet at a newline concatenate to such a text |
| Normalizer.NormalizeTail | EdgarSearch.py:304-322 | the normalised text contains none of ":\n", "$\n", "\n%", " \n" or "\n ", and every newline lies in a run of exactly two |
| Normalizer.Normalize | EdgarSearch.py:294-324 | for any Unicode head, the normalised text has no stray breaks and paired newlines |
| Normalizer.RepairSymbolsAbsent | EdgarSearch.py:315-319 | text without colons, dollar signs and percent signs is unchanged by the symbol repairs |
| Normalizer.StackedHeadings | EdgarSearch.py:309-313 | on two stacked period lines the heading repair joins only the first, because the leftmost of two overlapping matches is taken |
| Normalizer.StackedOnce | EdgarSearch.py:304-322 | one pass of lines 304-322 over `"\n.\n.\nY"` gives `".\n\n.\n\nY"` |
| Normalizer.StackedTwice | EdgarSearch.py:304-322 | a pass over `".\n\n.\n\nY"` gives `"..\n\nY"`, joining the remaining period line |
| Normalizer.NormalizeNotIdempotent | EdgarSearch.py:304-322 | applying lines 304-322 to their own output can change it again |
| Normalizer.NormalizeTwiceDiffers | EdgarSearch.py:294-324 | for every Unicode head that leaves the two witness texts unchanged, as NFKD, `splitlines` and `upper` do, `normalize_text` applied twice differs from applying it once |
| Locator.EndMarkers | EdgarSearch.py:353-355 | the end headings start with "\nITEM 7A", and "\nITEM 7" is added exactly on the second search |
| Locator.Chosen | EdgarSearch.py:360-363 | the chosen heading is the first in list order that occurs, and every earlier heading occurs nowhere |
| Locator.FindFirstOf | EdgarSearch.py:366-375 | the search loop returns the first occurrence of the first heading in list order that occurs, or -1 |
| Locator.StartIndex | EdgarSearch.py:360-363 | the start is -1 exactly when no start heading occurs; otherwise it is the first occurrence of the highest-priority heading that occurs |
| Locator.EndIndex | EdgarSearch.py:365-375 | the end is the first "\nITEM 7A" after the start; failing that, on the second search, the first "\nITEM 7"; failing that, the first "\nITEM 8"; otherwise -1 |
| Locator.StartHeading | EdgarSearch.py:352 | every start heading begins with "\nITEM 7" |
| Locator.EndOnNewline | EdgarSearch.py:366-375 | an end heading found lies after the start and begins with a newline inside the text |
| Locator.SectionHead | EdgarSearch.py:377-378 | a section cut from a start heading to a newline strips to text beginning "ITEM 7" |
| Locator.FoundSection | EdgarSearch.py:360-378 | when both a start and an end are found, the slice from start to end is at least seven characters long and strips to text beginning "ITEM 7" |
| Locator.ParseMda | EdgarSearch.py:347-381 | gives ("", 0) when no start heading occurs in the searched text; otherwise the section is non-empty exactly when the end is non-zero, and then it is the stripped slice from start to end, begins "ITEM 7", and the end lies strictly inside the searched text |
| Locator.Utf8Width | EdgarSearch.py:205 | a character takes one to four UTF-8 bytes, and exactly one when it is ASCII |
| Locator.Utf8Length | EdgarSearch.py:205 | the UTF-8 length lies between one and four bytes per character, and equals the character count exactly for ASCII text |
| Locator.Utf8LengthConcat | EdgarSearch.py:205 | the byte length of a concatenation is the sum of the byte lengths, so the length of a text is the sum of its characters' widths |
| Locator.ExtractSection | EdgarSearch.py:203-206 | a second search happens exactly when the first section is non-empty and shorter than 1000 UTF-8 bytes; it starts at the first end and its result replaces the first; any section kept begins "ITEM 7" |
| Locator.MojibakeNeverMatches | EdgarSearch.py:352 | the mis-decoded dash heading cannot match text without a lower-case "â", such as upper-cased text |
| Locator.PriorityOverPosition | EdgarSearch.py:360-363 | with "\nITEM 7 " first and "\nITEM 7." later, the later "\nITEM 7." is chosen |
| Locator.FirstPassExample | EdgarSearch.py:347-381 | on "\nITEM 7.\nITEM 8" the first search gives the section "ITEM 7." ending at 8 |
| Locator.SecondPassExample | EdgarSearch.py:347-381 | the second search from offset 8 of the same text finds nothing |
| Locator.RetryMayDiscard | EdgarSearch.py:203-206 | on that text the short first section is retried and replaced by the empty one |
| Counter.CountEqual | EdgarSearch.py:330-333 | the loop counts how often the keyword occurs among the tokens |
| Counter.SplitEmpty | EdgarSearch.py:225 | a text has no tokens exactly when it is all whitespace |
| Counter.TotalWords | EdgarSearch.py:225-228 | the total word count is zero exactly when the section is all whitespace |
| Counter.CountWords | EdgarSearch.py:326-334 | the count is the number of `split()` tokens equal to the keyword; it is at most the total word count, and 0 for an empty keyword or one with whitespace |
| Counter.CountContaining | EdgarSearch.py:341-343 | the count of segments that contain the keyword is at most the number of segments, and zero exactly when none does |
| Counter.CountContainingConcat | EdgarSearch.py:341-343 | the count over two lists of segments is the sum of the two counts, so each containing segment adds exactly one |
| Counter.Segments | EdgarSearch.py:339-340 | there is one more segment than there are periods and newlines, and no segment holds either |
| Counter.CountSentences | EdgarSearch.py:336-344 | the count is at most the number of periods and newlines plus one, and 0 for a keyword holding a period or newline |
| Counter.SegmentsAtBreak | EdgarSearch.py:339-340 | a period or line break separates segments: the segments of `a` + break + `b` are those of `a` followed by those of `b` |
| Counter.CountSentencesAtBreak | EdgarSearch.py:336-344 | the count for a text broken at a period or line break is the sum of the counts of the two sides |
| Counter.CountSentencesOneSegment | EdgarSearch.py:336-344 | a text without periods and line breaks counts 1 when it contains the keyword and 0 otherwise |
| Counter.SentenceFound | EdgarSearch.py:336-344 | a keyword without periods or newlines that occurs in the text is counted at least once |
| Counter.CountKeyword | EdgarSearch.py:221-224 | a keyword with a space is counted as the number of period- or newline-delimited segments containing it; any other keyword as the number of tokens equal to it; the bounds of each counter carry over |
| Counter.ProfitsIsNotProfit | EdgarSearch.py:326-334 | "profits" is not counted as "profit" |
| Counter.CountIsCaseSensitive | EdgarSearch.py:330-332 | "Profit" is not counted as "profit", because the result of `word.lower()` is discarded |
| Counter.OneSegment | EdgarSearch.py:339-340 | a text without periods and newlines is a single segment |
| Counter.SentenceExample | EdgarSearch.py:336-344 | "profit rose. profit rose again.\nprofit fell." holds "profit rose" in two segments and counts 2 |
| Counter.RepeatCountsOnce | EdgarSearch.py:341-343 | a keyword repeated inside one segment counts once |
| Records.ColumnStarts | EdgarSearch.py:115-119 | each boundary is the first occurrence of its column title in the header row, or -1 when the title is missing |
| Records.Field | EdgarSearch.py:44-45 | a field neither starts nor ends with a double quote |
| Records.FieldClean | EdgarSearch.py:44-45 | a slice without trailing whitespace or surrounding quotes is kept as it is |
| Records.Fields | EdgarSearch.py:43-46 | there is one field per boundary, none starting or ending with a quote |
| Records.ParseRowToRecord | EdgarSearch.py:40-51 | the record is the fields with the year in position 3 and the filing date moved to position 5; the other fields are unchanged and unquoted |
| Records.IndexScan | EdgarSearch.py:113-127 | every record has six fields and the file's year; a file without 10-K rows gives no records |
| Records.ScanTenKBlock | EdgarSearch.py:113-124 | under known column boundaries, a block of "10-K " rows gives exactly one record per row, in order, each parsed from its row |
| Records.ScanTenKRow | EdgarSearch.py:121-124 | a "10-K " row under known column boundaries contributes its parsed record ahead of the records of the rows after it |
| Records.AmendmentsSkipped | EdgarSearch.py:121 | rows for "10-K/A" and "10-K405" filings are not taken as 10-K rows |
| Records.DirPrefix | EdgarSearch.py:105 | the directory part of a joined path is the directory, ending in '/' unless it is empty |
| Records.JoinPath | EdgarSearch.py:105 | `os.path.join` keeps an absolute name; otherwise it puts the directory prefix before the name |
| Records.IndexYearAsWritten | EdgarSearch.py:110-112 | the year is read as at most four characters (the code as written) |
| Records.IndexYear | EdgarSearch.py:110-112 | the year is read as at most four characters after the actual directory prefix |
| Records.IndexYearRoundTrip | EdgarSearch.py:64-65 | the corrected year read from an index path gives back the year the name was built from, for any directory |
| Records.IndexYearRoundTripAsWritten | EdgarSearch.py:110-112 | the year as written is right for a non-empty directory without a trailing slash |
| Records.IndexYearTrailingSlashShifts | EdgarSearch.py:110-112 | for a directory ending in '/', the year as written loses its first digit and gains a trailing "_" |
| Records.IndexYearTrailingSlash | EdgarSearch.py:110-112 | "1994" under "Index/" is read back as "994_" |
| Records.CleanName | EdgarSearch.py:154 | the stored company name is the given name with every space and slash removed and the other characters kept in order |
| Records.TenKFileName | EdgarSearch.py:156 | a stored file name is non-empty and relative |
| Records.RowFileNameRoundTrip | EdgarSearch.py:150-156 | a row of six fields gives a file name, and that name parses back into the row's cleaned name, CIK, year and filing date |
| Records.ParseFileNameAsWritten | EdgarSearch.py:190-194 | the parse as written succeeds exactly when the path holds at least three '_' |
| Records.ParseFileName | EdgarSearch.py:190-194 | the corrected parse succeeds exactly when the file name after the directory prefix holds at least three '_' |
| Records.ParseAgrees | EdgarSearch.py:190-194 | under a non-empty directory without a trailing slash and without `_`, the parse as written and the corrected parse agree on every path |
| Records.UnderscoreDirectoryParses | EdgarSearch.py:190-194 | under a directory holding `_`, the parse as written reads a path whose file name has no `_` and takes its fields from the directory, where the corrected parse fails |
| Records.FileNamePieces | EdgarSearch.py:190-194 | a stored name whose fields hold no '_' splits into those fields, and dropping ".txt" gives back the date |
| Records.FileNameRoundTrip | EdgarSearch.py:154-156 | the corrected parse of a stored path gives back the cleaned name, CIK, year and filing date it was built from, for any directory |
| Records.AsWrittenPieces | EdgarSearch.py:190-194 | the parse as written takes the name from index `len(dir) + 1` of the first piece |
| Records.FileNameRoundTripAsWritten | EdgarSearch.py:190-194 | the parse as written gives back the fields for a non-empty directory without a trailing slash or '_' |
| Records.JoinRelative | EdgarSearch.py:157 | a relative name is appended to the directory prefix |
| Records.JoinAfterSlash | EdgarSearch.py:157 | a relative name joined to a directory ending in '/' is appended directly |
| Records.CleanFileName | EdgarSearch.py:154-156 | a name without spaces or slashes goes into the file name unchanged |
| Records.FileNameTrailingSlashDrops | EdgarSearch.py:190-194 | for a directory ending in '/', the parse as written loses the first character of the company name |
| Records.FileNameTrailingSlash | EdgarSearch.py:190-194 | "ACME" stored under "10K/" is read back as "CME" |
| Records.Header | EdgarSearch.py:185-187 | the header is the five fixed column names followed by each keyword upper-cased, in keyword order |
| Records.DataRow | EdgarSearch.py:195 | the row holds the name, CIK, year and filing date, the total word count of the unlowered text, and then each keyword's count in the lower-cased text |
| Records.ColumnsAlign | EdgarSearch.py:185-195 | header and data row have the same width, and column 5 + i holds keyword i in both |
| Records.AlignedConcat | EdgarSearch.py:233 | appending rows of equal width keeps the table aligned |
| Records.MdaRow | EdgarSearch.py:195-233 | a filing gives a row exactly when its final section is non-empty; the section then starts with "ITEM 7", and the row holds the parsed fields, the section's word total and each keyword's count over the lower-cased section |
| Records.AllNamedCons | EdgarSearch.py:189-194 | every path parses exactly when the first one does and all the rest do |
| Records.RowList | EdgarSearch.py:208-233 | a filing adds at most one row, and it adds one exactly when a row was made |
| Records.MdaRows | EdgarSearch.py:189-233 | the rows exist exactly when every path parses; there are at most as many as files, and all have header width |
| Records.MdaRowsInOrder | EdgarSearch.py:189-233 | the MD&A rows are the per-filing rows concatenated in file order |
| Records.DocRowsAt | EdgarSearch.py:195-233 | the rows listed for filing `j` are that filing's own rows |
| Records.MdaTable | EdgarSearch.py:184-233 | the table exists exactly when every path parses; it is the header followed by the MD&A rows |
| Records.TenKRows | EdgarSearch.py:253-283 | the rows exist exactly when every path parses; row `j` then holds filing `j`'s parsed fields, the word total of its normalised text and each keyword's count over the lower-cased text |
| Records.ParseKeywords | EdgarSearch.py:388-392 | the list has one keyword per comma plus one; no keyword holds '_' or ','; and joining them with commas gives the lower-cased argument with '_' read as a space |
| Records.CommaCount | EdgarSearch.py:389 | a character map that fixes commas keeps their number |

## Left out

- `download_and_extract_index` and `download_10k` (EdgarSearch.py:53-174) are left out. They are network and file plumbing: HTTP requests, HTML-to-text conversion, a regex scrub of pages, random sleeps and `exit`. Only their pure pieces are modelled: the index row parse, the index scan, and the stored file name.
- Directory creation, `glob`, file reads and writes, and CSV output (EdgarSearch.py:179-189, 197-198, 235-241, 286-292) are left out. Each table is modelled as a sequence of rows, and the filings as a sequence of (path, text) pairs.
- Sorting of the paths (lines 189 and 253) is left out. The filings are given in the order the program visits them.
- The check that writes an `.mda` file only if it is absent (lines 210-216) is file I/O and has no effect on the rows.
- `docopt` argument parsing (line 386) is left out. The keyword argument is an input string.
- NFKD normalisation, `splitlines`, `upper()` and `lower()` (lines 296-301, 187, 222, 224, 388) are left out. They rest on Unicode tables, so they are function parameters.
- Whitespace for `split()` and `strip()` is fixed to the code points Python's `str.isspace` accepts. There are no locale-dependent variants.
- Records.IndexScan: the code carries column boundaries over from one index file to the next. Here each file is scanned on its own, and a 10-K row before any header row gives `None`; the program would fail with a name error at that point.
- Records.IndexScan: the records of all index files are concatenated in sorted file order. The model states the per-file scan only.
- Records.MdaRows: built on the corrected file-name parse rather than lines 190-194 as written. The two agree when the directory is non-empty, has no trailing slash and holds no `_` (`Records.ParseAgrees`). Otherwise the code's NAME cell loses characters (`Records.FileNameTrailingSlash`), or the code reads fields out of the directory name (`Records.UnderscoreDirectoryParses`).
- Records.TenKRows: built on the corrected file-name parse, with the same difference from lines 254-258 as written as `Records.MdaRows`.
- Records.MdaTable: built on `Records.MdaRows`, so it uses the corrected file-name parse too.
- Records.DataRow: the counts are stored as cells; how the CSV writer renders them is not modelled.

## Findings

| source | as written | input that shows it | evidently intended | confidence | as-written member | corrected member |
|---|---|---|---|---|---|---|
| EdgarSearch.py:190-194 | the company name is taken from index `len(dir) + 1` of the path, assuming the join added a '/' after the directory | `--10k-dir=10K/` with company "ACME" stores `10K/ACME_1_1994_1994-03-01.txt`, which is read back with name "CME" | remove exactly the directory prefix that `os.path.join` produced | not executed | Records.FileNameTrailingSlashDrops | Records.FileNameRoundTrip |
| EdgarSearch.py:110-112 | the year is read from index `len(dir) + 1` of the index file path, assuming the join added a '/' after the directory | `--index-dir=Index/` makes `Index/1994_qtr1.index` give the year "994_" | read the four characters after the directory prefix that `os.path.join` produced | not executed | Records.IndexYearTrailingSlashShifts | Records.IndexYearRoundTrip |

=== FILE: counter.dfy ===
/** The keyword counters of EdgarSearch.py: `count_words` (exact equality
    with the whitespace-separated tokens), `count_words_sentence` (segments
    between periods and line breaks that contain the keyword), the total word
    count, and the choice between the two counters. */
module Counter {
  import opened PyStr

  /** Number of entries of `ws` equal to `k`. */
  function CountEqual(ws: seq<string>, k: string): (n: nat)
    ensures n == multiset(ws)[k]
    ensures n <= |ws|
  {
    if |ws| == 0 then 0
    else
      assert ws == [ws[0]] + ws[1..];
      (if ws[0] == k then 1 else 0) + CountEqual(ws[1..], k)
  }

  /** A text has no tokens exactly when it is all whitespace. */
  lemma {:induction false} SplitEmpty(text: string)
    ensures |Split(text)| == 0 <==> AllDropped(text, IsSpace)
    decreases |text|
  {
    if |text| > 0 {
      SplitEmpty(text[1..]);
      if IsSpace(text[0]) {
        assert AllDropped(text, IsSpace) <==> AllDropped(text[1..], IsSpace) by {
          if AllDropped(text[1..], IsSpace) {
            forall i | 0 <= i < |text| ensures IsSpace(text[i]) {
              if i > 0 {
                assert text[i] == text[1..][i - 1];
              }
            }
          }
        }
      }
    }
  }

  /** Lines 225-228: the number of `split()` tokens. */
  function TotalWords(text: string): (n: nat)
    ensures n == 0 <==> AllDropped(text, IsSpace)
  {
    SplitEmpty(text);
    |Split(text)|
  }

  /** `count_words` (lines 326-334): the number of tokens exactly equal to
      the keyword. The `word.lower()` at line 331 discards its result, so the
      comparison is case-sensitive. */
  function CountWords(text: string, keyword: string): (n: nat)
    ensures n == multiset(Split(text))[keyword]
    ensures n <= TotalWords(text)
    ensures |keyword| == 0 || !NoSpace(keyword) ==> n == 0
  {
    CountEqual(Split(text), keyword)
  }

  /** Number of pieces that contain `k`. */
  function CountContaining(ps: seq<string>, k: string): (n: nat)
    ensures n <= |ps|
    ensures n == 0 <==> forall i :: 0 <= i < |ps| ==> !Contains(ps[i], k)
  {
    if |ps| == 0 then 0
    else
      var n := CountContaining(ps[1..], k);
      assert forall i :: 1 <= i < |ps| ==> ps[i] == ps[1..][i - 1];
      (if Contains(ps[0], k) then 1 else 0) + n
  }

  /** The count over two lists of pieces is the sum of the counts. */
  lemma {:induction false} CountContainingConcat(a: seq<string>, b: seq<string>, k: string)
    ensures CountContaining(a + b, k) == CountContaining(a, k) + CountContaining(b, k)
    decreases |a|
  {
    var ab := a + b;
    if |a| == 0 {
      assert ab == b;
    } else {
      var head := if Contains(a[0], k) then 1 else 0;
      assert ab[0] == a[0] && ab[1..] == a[1..] + b;
      CountContainingConcat(a[1..], b, k);
      assert CountContaining(ab, k) == head + CountContaining(ab[1..], k);
      assert CountContaining(a, k) == head + CountContaining(a[1..], k);
    }
  }

  /** Lines 339-340: line breaks become periods and the text is split on
      periods; there is one segment more than there are periods and line
      breaks, and no segment holds either. */
  function Segments(text: string): (ps: seq<string>)
    ensures |ps| == multiset(text)['.'] + multiset(text)['\n'] + 1
    ensures forall i :: 0 <= i < |ps| ==> '.' !in ps[i] && '\n' !in ps[i]
  {
    var u := Replace(text, "\n", ".");
    assert "\n" == ['\n'] && "." == ['.'];
    ReplaceCharCount(text, '\n', '.');
    assert '\n' !in u;
    SplitOnCount(u, '.');
    SplitOnChars(u, '.', '\n');
    SplitOn(u, '.')
  }

  /** `count_words_sentence` (lines 336-344): the number of segments that
      contain the keyword, each counted once however often it repeats. */
  function CountSentences(text: string, keyword: string): (n: nat)
    ensures n <= multiset(text)['.'] + multiset(text)['\n'] + 1
    ensures '.' in keyword || '\n' in keyword ==> n == 0
  {
    var ps := Segments(text);
    assert '.' in keyword || '\n' in keyword ==> forall i :: 0 <= i < |ps| ==> !Contains(ps[i], keyword) by {
      forall i | 0 <= i < |ps| && Contains(ps[i], keyword) ensures '.' !in keyword && '\n' !in keyword {
        if '.' in keyword {
          ContainsChar(ps[i], keyword, '.');
        }
        if '\n' in keyword {
          ContainsChar(ps[i], keyword, '\n');
        }
      }
    }
    CountContaining(ps, keyword)
  }

  /** A period or line break ends a segment: the segments of the text on
      either side of it are kept apart. */
  lemma SegmentsAtBreak(a: string, c: char, b: string)
    requires c == '.' || c == '\n'
    ensures Segments(a + [c] + b) == Segments(a) + Segments(b)
  {
    assert "\n" == ['\n'] && "." == ['.'];
    var ra := Replace(a, ['\n'], ['.']);
    var rb := Replace(b, ['\n'], ['.']);
    assert Replace([c], ['\n'], ['.']) == ['.'] by {
      ReplaceCharStep([c], '\n', ['.']);
      assert [c][1..] == [];
    }
    ReplaceCharConcat(a, [c], '\n', '.');
    ReplaceCharConcat(a + [c], b, '\n', '.');
    assert Replace(a + [c] + b, ['\n'], ['.']) == ra + ['.'] + rb;
    SplitOnAtSep(ra, rb, '.');
  }

  /** The sentence count of a text broken at a period or line break is the
      sum of the counts of the two sides. */
  lemma CountSentencesAtBreak(a: string, c: char, b: string, keyword: string)
    requires c == '.' || c == '\n'
    ensures CountSentences(a + [c] + b, keyword) == CountSentences(a, keyword) + CountSentences(b, keyword)
  {
    SegmentsAtBreak(a, c, b);
    CountContainingConcat(Segments(a), Segments(b), keyword);
  }

  /** A text without periods and line breaks counts 1 when it contains the
      keyword and 0 otherwise; with `CountSentencesAtBreak` this fixes the
      count of every text. */
  lemma CountSentencesOneSegment(text: string, keyword: string)
    requires '.' !in text && '\n' !in text
    ensures CountSentences(text, keyword) == if Contains(text, keyword) then 1 else 0
  {
    OneSegment(text);
  }

  /** A keyword free of periods and line breaks that occurs in the text lies
      within one segment, so it is counted at least once. */
  lemma SentenceFound(text: string, keyword: string)
    requires '.' !in keyword && '\n' !in keyword
    requires Contains(text, keyword)
    ensures CountSentences(text, keyword) >= 1
  {
    var i := Find(text, keyword, 0);
    var u := Replace(text, "\n", ".");
    assert "\n" == ['\n'] && "." == ['.'];
    ReplaceCharKeepsOccurrence(text, '\n', '.', keyword, i);
    SplitOnKeepsOccurrence(u, '.', keyword, i);
  }

  /** Lines 221-224: a keyword with a space is counted by segments, any
      other by tokens. */
  function CountKeyword(text: string, keyword: string): (n: nat)
    ensures ' ' in keyword ==> n <= multiset(text)['.'] + multiset(text)['\n'] + 1
    ensures ' ' !in keyword ==> n <= TotalWords(text)
    ensures ' ' !in keyword ==> n == multiset(Split(text))[keyword]
    ensures ' ' in keyword ==> n == CountContaining(Segments(text), keyword)
    ensures ' ' in keyword && '.' !in keyword && '\n' !in keyword && Contains(text, keyword) ==> n >= 1
  {
    if ' ' in keyword then
      assert '.' !in keyword && '\n' !in keyword && Contains(text, keyword) ==>
        CountSentences(text, keyword) >= 1 by {
        if '.' !in keyword && '\n' !in keyword && Contains(text, keyword) {
          SentenceFound(text, keyword);
        }
      }
      CountSentences(text, keyword)
    else
      CountWords(text, keyword)
  }

  // ---------------------------------------------------------------------
  // Worked examples

  /** "profits" is a different token from "profit". */
  lemma ProfitsIsNotProfit()
    ensures CountWords("profit profits profit", "profit") == 2
  {
    var ws := ["profit", "profits", "profit"];
    assert Join(ws, " ") == "profit profits profit";
    SplitJoinRoundTrip(ws);
  }

  /** The token comparison is case-sensitive. */
  lemma CountIsCaseSensitive()
    ensures CountWords("Profit rose", "profit") == 0
  {
    var ws := ["Profit", "rose"];
    assert Join(ws, " ") == "Profit rose";
    SplitJoinRoundTrip(ws);
  }

  /** A text without periods and line breaks is a single segment. */
  lemma OneSegment(text: string)
    requires '.' !in text && '\n' !in text
    ensures Segments(text) == [text]
  {
    var u := Replace(text, "\n", ".");
    assert u == text by {
      assert "\n" == ['\n'] && "." == ['.'];
      ReplaceCharMap(text, '\n', '.');
      assert forall j :: 0 <= j < |text| ==> text[j] != '\n';
    }
    SplitOnPiece(text, '.');
  }

  const ExampleText: string := "profit rose. profit rose again.\nprofit fell."
  const ExamplePieces: seq<string> := ["profit rose", " profit rose again", "", "profit fell", ""]
  const ExampleFirstLine: string := "profit rose. profit rose again."
  const ExampleSecondLine: string := "profit fell."

  lemma ExampleText3()
    ensures ExampleText == ExampleFirstLine + "\n" + ExampleSecondLine
  {
  }

  lemma ExampleNoBreaks()
    ensures '\n' !in ExampleFirstLine && '\n' !in ExampleSecondLine
  {
  }

  /** Join of five pieces, written out. */
  lemma JoinFive(a: string, b: string, c: string, d: string, e: string, sep: string)
    ensures Join([a, b, c, d, e], sep) == a + sep + b + sep + c + sep + d + sep + e
  {
    assert Join([d, e], sep) == d + sep + e by {
      assert [d, e][1..] == [e];
    }
    assert Join([c, d, e], sep) == c + sep + (d + sep + e) by {
      assert [c, d, e][1..] == [d, e];
    }
    assert Join([b, c, d, e], sep) == b + sep + (c + sep + (d + sep + e)) by {
      assert [b, c, d, e][1..] == [c, d, e];
    }
    assert [a, b, c, d, e][1..] == [b, c, d, e];
  }

  lemma ExampleJoin()
    ensures Join(ExamplePieces, ".") == ExampleFirstLine + "." + ExampleSecondLine
  {
    JoinFive("profit rose", " profit rose again", "", "profit fell", "", ".");
  }

  lemma ExampleReplaced()
    ensures Replace(ExampleText, "\n", ".") == Join(ExamplePieces, ".")
  {
    var x := ExampleFirstLine;
    var y := ExampleSecondLine;
    ExampleText3();
    ExampleNoBreaks();
    ExampleJoin();
    assert "\n" == ['\n'] && "." == ['.'];
    ReplaceCharConcat(x + "\n", y, '\n', '.');
    ReplaceCharConcat(x, "\n", '\n', '.');
    ReplaceAbsentChar(x, '\n', ".");
    ReplaceAbsentChar(y, '\n', ".");
    assert Replace("\n", "\n", ".") == ".";
  }

  lemma ExampleNoPeriods()
    ensures forall k :: 0 <= k < |ExamplePieces| ==> '.' !in ExamplePieces[k]
  {
    assert '.' !in ExamplePieces[0] && '.' !in ExamplePieces[1] && '.' !in ExamplePieces[2];
    assert '.' !in ExamplePieces[3] && '.' !in ExamplePieces[4];
  }

  lemma ExampleSegments()
    ensures Segments(ExampleText) == ExamplePieces
  {
    ExampleReplaced();
    ExampleNoPeriods();
    SplitOnJoin(ExamplePieces, '.');
  }

  lemma ExampleContains()
    ensures Contains(ExamplePieces[0], "profit rose")
    ensures Contains(ExamplePieces[1], "profit rose")
    ensures !Contains(ExamplePieces[2], "profit rose")
    ensures !Contains(ExamplePieces[3], "profit rose")
    ensures !Contains(ExamplePieces[4], "profit rose")
  {
    var k := "profit rose";
    assert OccursAt(ExamplePieces[0], k, 0);
    assert ExamplePieces[1][1..12] == k;
    ContainsAt(ExamplePieces[1], k, 1);
    assert ExamplePieces[3][7] != k[7];
  }

  lemma ExampleCount()
    ensures CountContaining(ExamplePieces, "profit rose") == 2
  {
    ExampleContains();
    var ps := ExamplePieces;
    var k := "profit rose";
    assert CountContaining(ps[4..], k) == 0;
    assert CountContaining(ps[3..], k) == 0 by {
      assert ps[3..][1..] == ps[4..];
    }
    assert CountContaining(ps[2..], k) == 0 by {
      assert ps[2..][1..] == ps[3..];
    }
    assert CountContaining(ps[1..], k) == 1 by {
      assert ps[1..][1..] == ps[2..];
    }
  }

  /** Two of the three segments contain "profit rose". */
  lemma SentenceExample()
    ensures CountSentences("profit rose. profit rose again.\nprofit fell.", "profit rose") == 2
  {
    ExampleSegments();
    ExampleCount();
  }

  lemma RepeatTextFacts()
    ensures '.' !in "oil up, oil up" && '\n' !in "oil up, oil up"
    ensures OccursAt("oil up, oil up", "oil up", 0)
  {
    assert "oil up, oil up"[0..6] == "oil up";
  }

  /** A keyword repeated inside one segment is counted once. */
  lemma RepeatCountsOnce()
    ensures CountSentences("oil up, oil up", "oil up") == 1
  {
    var text := "oil up, oil up";
    RepeatTextFacts();
    OneSegment(text);
    assert CountContaining([text], "oil up") == 1;
  }
}

=== FILE: locator.dfy ===
/** `parse_mda` (EdgarSearch.py): the MD&A section of a normalized filing is
    the text from an "ITEM 7" heading to the next "ITEM 7A" (or, on the second
    pass, "ITEM 7"), failing that to the next "ITEM 8", with surrounding
    whitespace stripped. Markers are tried in list order with `str.find`;
    the returned end offset is relative to the searched suffix. Also the
    one-shot retry of `extract_mda`. */
module Locator {
  import opened PyStr

  /** The start headings, in the order they are tried. The second entry ends
      in the three characters U+00E2 U+20AC U+201C, a dash as it reads once
      UTF-8 punctuation has been decoded as Windows-1252. */
  const ItemSevenStarts: seq<string> :=
    ["\nITEM 7.", "\nITEM 7 \U{00E2}\U{20AC}\U{201C}", "\nITEM 7:", "\nITEM 7 ", "\nITEM 7\n"]
  const ItemSevenA: string := "\nITEM 7A"
  const ItemSeven: string := "\nITEM 7"
  const ItemEight: string := "\nITEM 8"

  /** A first section shorter than this many UTF-8 bytes is taken to be a
      table-of-contents entry and the search is repeated after it. */
  const RetryBytes: nat := 1000

  /** The end headings tried first; a second pass (a non-zero `start`) also
      stops at the next "ITEM 7". */
  function EndMarkers(retry: bool): (ms: seq<string>)
    ensures |ms| > 0 && ms[0] == ItemSevenA
    ensures retry <==> ItemSeven in ms
  {
    if retry then [ItemSevenA, ItemSeven] else [ItemSevenA]
  }

  /** `p` does not occur at or after `from` (an occurrence cannot start
      past the end of `t`). */
  predicate Absent(t: string, p: string, from: int) {
    forall i :: from <= i <= |t| ==> !OccursAt(t, p, i)
  }

  /** `r` is the first occurrence of `p` at or after `from`. */
  predicate FirstAt(t: string, p: string, from: int, r: int) {
    from <= r && OccursAt(t, p, r) && forall i :: from <= i < r ==> !OccursAt(t, p, i)
  }

  /** Position in `pats` of the first marker, in list order, that occurs at
      or after `from`; `|pats|` when none does. */
  function Chosen(t: string, pats: seq<string>, from: nat): (k: nat)
    ensures k <= |pats|
    ensures forall j :: 0 <= j < k ==> Absent(t, pats[j], from)
    ensures k < |pats| ==> !Absent(t, pats[k], from)
  {
    if |pats| == 0 then 0
    else if Find(t, pats[0], from) != -1 then 0
    else
      var k := Chosen(t, pats[1..], from);
      assert forall j :: 1 <= j < k + 1 ==> pats[j] == pats[1..][j - 1];
      1 + k
  }

  /** The loop `for m in pats: i = t.find(m, from); if i != -1: break`: the
      value left in `i`, which is the first occurrence of the first marker
      in list order that occurs at all. */
  function FindFirstOf(t: string, pats: seq<string>, from: nat): (r: int)
    ensures var k := Chosen(t, pats, from);
      && (k < |pats| ==> FirstAt(t, pats[k], from, r))
      && (k == |pats| ==> r == -1)
  {
    if |pats| == 0 then -1
    else
      var i := Find(t, pats[0], from);
      if i != -1 then i else FindFirstOf(t, pats[1..], from)
  }

  /** Lines 360-363: where the section starts, by list priority. */
  function StartIndex(t: string): (s: int)
    ensures s == -1 <==> forall k :: 0 <= k < |ItemSevenStarts| ==> Absent(t, ItemSevenStarts[k], 0)
    ensures var k := Chosen(t, ItemSevenStarts, 0);
      k < |ItemSevenStarts| ==> FirstAt(t, ItemSevenStarts[k], 0, s)
  {
    FindFirstOf(t, ItemSevenStarts, 0)
  }

  /** Lines 366-375: where the section ends, searching from just after its
      start: the first "ITEM 7A"; failing that, on a second pass, the first
      "ITEM 7"; failing that, the first "ITEM 8"; or -1. */
  function EndIndex(t: string, s: nat, retry: bool): (e: int)
    ensures !Absent(t, ItemSevenA, s + 1) ==> FirstAt(t, ItemSevenA, s + 1, e)
    ensures Absent(t, ItemSevenA, s + 1) && retry && !Absent(t, ItemSeven, s + 1) ==>
      FirstAt(t, ItemSeven, s + 1, e)
    ensures (Absent(t, ItemSevenA, s + 1) && (!retry || Absent(t, ItemSeven, s + 1))
             && !Absent(t, ItemEight, s + 1)) ==> FirstAt(t, ItemEight, s + 1, e)
    ensures (Absent(t, ItemSevenA, s + 1) && (!retry || Absent(t, ItemSeven, s + 1))
             && Absent(t, ItemEight, s + 1)) ==> e == -1
  {
    var ms := EndMarkers(retry);
    var e := FindFirstOf(t, ms, s + 1);
    var k := Chosen(t, ms, s + 1);
    if e == -1 then
      FindFirstOf(t, [ItemEight], s + 1)
    else
      assert k == 0 || (retry && k == 1);
      e
  }

  /** The result of `parse_mda`: the stripped section and the end offset
      relative to `text[start:]` (0 when nothing was found). */
  datatype Mda = Mda(section: string, end: nat)

  /** A heading found at `s` runs on at least to `s + 7`, so the stripped
      section from `s` to a later newline begins with "ITEM 7". */
  lemma SectionHead(t: string, s: nat, e: int)
    requires s + 7 <= |t| && t[s..s + 7] == ItemSeven
    requires s < e < |t| && t[e] == '\n'
    ensures e >= s + 7
    ensures |Strip(t[s..e])| >= 6 && Strip(t[s..e])[..6] == "ITEM 7"
  {
    var body := t[s + 1..e];
    assert t[s] == t[s..s + 7][0];
    assert t[s..e] == "\n" + body;
    assert body[..6] == t[s..s + 7][1..];
    StripKeepsHead("\n", body, 6);
  }

  /** Every start heading begins with "\nITEM 7". */
  lemma StartHeading(t: string, k: nat, s: int)
    requires k < |ItemSevenStarts| && OccursAt(t, ItemSevenStarts[k], s)
    ensures s + 7 <= |t| && t[s..s + 7] == ItemSeven
  {
    var m := ItemSevenStarts[k];
    assert |m| >= 8 && m[..7] == ItemSeven;
    assert t[s..s + 7] == t[s..s + |m|][..7];
  }

  /** An end marker found after `s` sits on a newline inside `t`. */
  lemma EndOnNewline(t: string, s: nat, retry: bool)
    requires EndIndex(t, s, retry) != -1
    ensures var e := EndIndex(t, s, retry); s < e < |t| && t[e] == '\n'
  {
    var e := EndIndex(t, s, retry);
    var m := if !Absent(t, ItemSevenA, s + 1) then ItemSevenA
             else if retry && !Absent(t, ItemSeven, s + 1) then ItemSeven
             else ItemEight;
    assert OccursAt(t, m, e);
    assert t[e..e + |m|][0] == t[e];
  }

  /** A start and an end found give a section that begins with "ITEM 7". */
  lemma FoundSection(t: string, retry: bool)
    requires StartIndex(t) != -1
    requires EndIndex(t, StartIndex(t), retry) != -1
    ensures var s := StartIndex(t); var e := EndIndex(t, s, retry);
      && s + 7 <= e < |t|
      && |Strip(t[s..e])| >= 6 && Strip(t[s..e])[..6] == "ITEM 7"
  {
    var s := StartIndex(t);
    var e := EndIndex(t, s, retry);
    StartHeading(t, Chosen(t, ItemSevenStarts, 0), s);
    EndOnNewline(t, s, retry);
    SectionHead(t, s, e);
  }

  /** `parse_mda(text, start)`. */
  function ParseMda(text: string, start: nat): (r: Mda)
    ensures var t := Slice(text, start, |text|);
      && (r.end == 0 <==> r.section == "")
      && (StartIndex(t) == -1 ==> r == Mda("", 0))
      && (StartIndex(t) != -1 && EndIndex(t, StartIndex(t), start != 0) != -1 ==> r.end != 0)
      && (r.end != 0 ==>
            && 0 <= StartIndex(t) && StartIndex(t) + 7 <= r.end < |t|
            && |r.section| >= 6 && r.section[..6] == "ITEM 7"
            && r.section == Strip(t[StartIndex(t)..r.end])
            && r.end == EndIndex(t, StartIndex(t), start != 0))
  {
    var t := Slice(text, start, |text|);
    var s := StartIndex(t);
    if s == -1 then Mda("", 0)
    else
      var e := EndIndex(t, s, start != 0);
      if e > s then
        FoundSection(t, start != 0);
        Mda(Strip(t[s..e]), e)
      else
        assert e == -1 by {
          if e != -1 {
            EndOnNewline(t, s, start != 0);
          }
        }
        Mda("", 0)
  }

  /** Number of bytes in the UTF-8 encoding of one character. */
  function Utf8Width(c: char): (w: nat)
    ensures 1 <= w <= 4
    ensures w == 1 <==> c < '\U{80}'
  {
    if c < '\U{80}' then 1
    else if c < '\U{800}' then 2
    else if c < '\U{10000}' then 3
    else 4
  }

  /** `len(s.encode('utf-8'))`. */
  function Utf8Length(s: string): (n: nat)
    ensures |s| <= n <= 4 * |s|
    ensures (forall i :: 0 <= i < |s| ==> s[i] < '\U{80}') <==> n == |s|
  {
    if |s| == 0 then 0 else Utf8Width(s[0]) + Utf8Length(s[1..])
  }

  /** The byte length of a concatenation is the sum of the byte lengths, so
      the length is the sum of the per-character widths. */
  lemma {:induction false} Utf8LengthConcat(a: string, b: string)
    ensures Utf8Length(a + b) == Utf8Length(a) + Utf8Length(b)
    decreases |a|
  {
    if |a| == 0 {
      assert a + b == b;
    } else {
      Utf8LengthConcat(a[1..], b);
      assert (a + b)[1..] == a[1..] + b;
    }
  }

  /** The section `extract_mda` keeps for one normalized filing, and whether
      it searched a second time. */
  datatype Extraction = Extraction(section: string, retried: bool)

  /** Lines 203-206: a non-empty first section under `RetryBytes` bytes is
      replaced by the result of a second search after it, whatever that
      second search finds; there is no third search. */
  function ExtractSection(text: string): (x: Extraction)
    ensures var first := ParseMda(text, 0);
      && (x.retried <==> first.section != "" && Utf8Length(first.section) < RetryBytes)
      && (first.section == "" ==> x == Extraction("", false))
      && (!x.retried ==> x.section == first.section)
      && (x.retried ==> 0 < first.end && x.section == ParseMda(text, first.end).section)
      && (x.section == "" || x.section[..6] == "ITEM 7")
  {
    var first := ParseMda(text, 0);
    if first.section != "" && Utf8Length(first.section) < RetryBytes then
      Extraction(ParseMda(text, first.end).section, true)
    else
      Extraction(first.section, false)
  }

  // ---------------------------------------------------------------------
  // Properties of the marker lists

  /** The mis-decoded dash heading needs the lower-case character U+00E2,
      so it never matches a text without one, such as upper-cased text. */
  lemma MojibakeNeverMatches(t: string)
    requires forall i :: 0 <= i < |t| ==> t[i] != '\U{00E2}'
    ensures Absent(t, ItemSevenStarts[1], 0)
  {
    var m := ItemSevenStarts[1];
    forall i | 0 <= i ensures !OccursAt(t, m, i) {
      if i + |m| <= |t| {
        assert t[i..i + |m|][8] == t[i + 8];
      }
    }
  }

  /** The start heading is chosen by list priority, not by position: an
      "ITEM 7." heading later in the text wins over an earlier "ITEM 7 ". */
  lemma PriorityOverPosition()
    ensures StartIndex("\nITEM 7 A\nITEM 7.") == 9
  {
    var t := "\nITEM 7 A\nITEM 7.";
    var m := ItemSevenStarts[0];
    assert t[9..17] == m;
    assert OccursAt(t, m, 9);
    forall i | 0 <= i < 9 ensures !OccursAt(t, m, i) {
      if i + |m| <= |t| {
        assert t[i..i + |m|][0] == t[i];
        assert t[i..i + |m|][7] == t[i + 7];
      }
    }
  }

  /** A filing whose only section is a table-of-contents entry. */
  const ShortFiling: string := "\nITEM 7.\nITEM 8"

  lemma ExampleStart()
    ensures StartIndex(ShortFiling) == 0
  {
    var text := ShortFiling;
    assert text[0..8] == ItemSevenStarts[0];
    assert OccursAt(text, ItemSevenStarts[0], 0);
  }

  lemma ExampleNoSevenA()
    ensures Absent(ShortFiling, ItemSevenA, 1)
  {
    var text := ShortFiling;
    forall i | 1 <= i <= |text| ensures !OccursAt(text, ItemSevenA, i) {
      if i + |ItemSevenA| <= |text| {
        assert text[i..i + |ItemSevenA|][0] == text[i];
      }
    }
  }

  lemma ExampleEightFirst()
    ensures FirstAt(ShortFiling, ItemEight, 1, 8)
  {
    var text := ShortFiling;
    assert text[8..15] == ItemEight;
    forall i | 1 <= i < 8 ensures !OccursAt(text, ItemEight, i) {
      assert text[i..i + |ItemEight|][0] == text[i];
    }
  }

  lemma ExampleEnd()
    ensures EndIndex(ShortFiling, 0, false) == 8
  {
    ExampleNoSevenA();
    ExampleEightFirst();
  }

  lemma ExampleStrip()
    ensures Strip(ItemSevenStarts[0]) == "ITEM 7."
  {
    var lead: string := "\n";
    assert ItemSevenStarts[0] == lead + "ITEM 7.";
    StripLead(lead, "ITEM 7.");
  }

  /** The first search on `ShortFiling` finds the short section
      "ITEM 7.", ending at the "ITEM 8" heading. */
  lemma FirstPassExample()
    ensures ParseMda(ShortFiling, 0) == Mda("ITEM 7.", 8)
  {
    var text := ShortFiling;
    assert Strip(text[0..8]) == "ITEM 7." by {
      assert text[0..8] == ItemSevenStarts[0];
      ExampleStrip();
    }
    assert Slice(text, 0, |text|) == text;
    ExampleStart();
    ExampleEnd();
  }

  /** The second search, on the text after the first section, finds no
      start heading at all. */
  lemma SecondPassExample()
    ensures ParseMda(ShortFiling, 8) == Mda("", 0)
  {
    var text := ShortFiling;
    var rest := Slice(text, 8, |text|);
    assert rest == ItemEight;
    forall k | 0 <= k < |ItemSevenStarts| ensures Absent(rest, ItemSevenStarts[k], 0) {
      assert |ItemSevenStarts[k]| > |rest|;
    }
  }

  /** The second search replaces a short first section even when it finds
      nothing, so this filing yields no section at all. */
  lemma RetryMayDiscard()
    ensures ExtractSection(ShortFiling) == Extraction("", true)
  {
    FirstPassExample();
    SecondPassExample();
    assert Utf8Length("ITEM 7.") == 7;
  }
}

=== FILE: normalizer.dfy ===
/** The deterministic tail of `normalize_text` (EdgarSearch.py): three
    whitespace collapses, a fixed chain of `str.replace` repairs for column-
    wrapped item headings and symbols, and newline doubling. The Unicode-
    dependent head of that function (NFKD, `splitlines`, `upper`) is supplied
    as a parameter. */
module Normalizer {
  import opened PyStr

  /** Length of the leading run of `c` in `s`. */
  function Run(s: string, c: char): (n: nat)
    ensures n <= |s|
    ensures forall k :: 0 <= k < n ==> s[k] == c
    ensures n < |s| ==> s[n] != c
  {
    if |s| > 0 && s[0] == c then 1 + Run(s[1..], c) else 0
  }

  /** `re.sub(r'[ ]+\n', '\n', s)`: a run of spaces directly before a
      newline is removed. */
  function DropSpacesBeforeNewline(s: string): string
    decreases |s|
  {
    if |s| == 0 then ""
    else
      var n := Run(s, ' ');
      if 0 < n < |s| && s[n] == '\n' then "\n" + DropSpacesBeforeNewline(s[n + 1..])
      else [s[0]] + DropSpacesBeforeNewline(s[1..])
  }

  /** `re.sub(r'\n[ ]+', '\n', s)`: a run of spaces directly after a
      newline is removed. */
  function DropSpacesAfterNewline(s: string): string
    decreases |s|
  {
    if |s| == 0 then ""
    else if s[0] == '\n' then "\n" + DropSpacesAfterNewline(s[1 + Run(s[1..], ' ')..])
    else [s[0]] + DropSpacesAfterNewline(s[1..])
  }

  /** `re.sub(r'\n+', '\n', s)`: a run of newlines becomes a single one. */
  function CollapseNewlines(s: string): string
    decreases |s|
  {
    if |s| == 0 then ""
    else if s[0] == '\n' then "\n" + CollapseNewlines(s[Run(s, '\n')..])
    else [s[0]] + CollapseNewlines(s[1..])
  }

  /** No character `a` is directly followed by a character `b`. */
  predicate NoPair(s: string, a: char, b: char) {
    forall i :: 0 < i < |s| ==> !(s[i - 1] == a && s[i] == b)
  }

  /** The shape after the whitespace collapses: no space touches a newline
      and no two newlines are adjacent. */
  predicate Tidy(s: string) {
    NoPair(s, ' ', '\n') && NoPair(s, '\n', ' ') && NoPair(s, '\n', '\n')
  }

  /** The pairs the symbol repairs and the collapses rule out for good:
      `":\n"`, `"$\n"`, `"\n%"`, `" \n"` and `"\n "`. */
  predicate NoStrayBreaks(s: string) {
    && NoPair(s, ':', '\n') && NoPair(s, '$', '\n') && NoPair(s, '\n', '%')
    && NoPair(s, ' ', '\n') && NoPair(s, '\n', ' ')
  }

  /** Every maximal run of newlines has length exactly two: a newline that
      starts a run is followed by one more newline and then by a
      non-newline or the end. */
  predicate NewlinesPaired(s: string) {
    forall i :: 0 <= i < |s| && RunStart(s, i) ==>
      i + 1 < |s| && s[i + 1] == '\n' && (i + 2 == |s| || s[i + 2] != '\n')
  }

  /** A run of newlines begins at index `i`. */
  predicate RunStart(s: string, i: int) {
    0 <= i < |s| && s[i] == '\n' && (i == 0 || s[i - 1] != '\n')
  }

  function Last(s: string): char
    requires |s| > 0
  {
    s[|s| - 1]
  }

  /** Lines 304-306: the three whitespace collapses. */
  function CollapseWhitespace(s: string): (r: string)
    ensures Tidy(r)
  {
    var a := DropSpacesBeforeNewline(s);
    DropSpacesBeforeNewlineShape(s);
    var b := DropSpacesAfterNewline(a);
    DropSpacesAfterNewlineShape(a);
    CollapseNewlinesShape(b);
    CollapseNewlines(b)
  }

  /** Lines 309-313: rejoin item headings broken across lines. */
  function RepairHeadings(s: string): (r: string)
    ensures Tidy(s) ==> Tidy(r)
  {
    var d := Replace(s, "\n.\n", ".\n");
    var e := Replace(d, "\nI\nTEM", "\nITEM");
    var f := Replace(e, "\nITEM\n", "\nITEM ");
    var g := Replace(f, "\nITEM  ", "\nITEM ");
    assert Tidy(s) ==> Tidy(g) by {
      if Tidy(s) {
        RepairHeadingsShape(s);
      }
    }
    g
  }

  /** Lines 315-319: a colon ending a line becomes a period, and currency and
      percent signs are glued back onto their numbers. */
  function RepairSymbols(s: string): (r: string)
    ensures Tidy(s) ==> Tidy(r) && NoStrayBreaks(r)
  {
    var h := Replace(s, ":\n", ".\n");
    var i := Replace(h, "$\n", "$");
    var j := Replace(i, "\n%", "%");
    assert Tidy(s) ==> Tidy(j) && NoStrayBreaks(j) by {
      if Tidy(s) {
        RepairSymbolsShape(s);
      }
    }
    j
  }

  /** Line 322: every newline is doubled. */
  function DoubleNewlines(s: string): (r: string)
    ensures Tidy(s) && NoStrayBreaks(s) ==> NoStrayBreaks(r)
    ensures NoPair(s, '\n', '\n') ==> NewlinesPaired(r)
  {
    var r := Replace(s, "\n", "\n\n");
    assert Tidy(s) && NoStrayBreaks(s) ==> NoStrayBreaks(r) by {
      if Tidy(s) && NoStrayBreaks(s) {
        DoubleKeepsNoStrayBreaks(s);
      }
    }
    assert NoPair(s, '\n', '\n') ==> NewlinesPaired(r) by {
      if NoPair(s, '\n', '\n') {
        DoubleNewlinesShape(s);
      }
    }
    r
  }

  /** Lines 304-322 of `normalize_text`, applied to the output of its
      Unicode-dependent first steps. */
  function NormalizeTail(s: string): (r: string)
    ensures NoStrayBreaks(r) && NewlinesPaired(r)
  {
    DoubleNewlines(RepairSymbols(RepairHeadings(CollapseWhitespace(s))))
  }

  /** `normalize_text`: the Unicode-dependent head (NFKD, `splitlines` joined
      with newlines, `upper`) is the parameter `unicodeHead`. */
  function Normalize(unicodeHead: string -> string, raw: string): (r: string)
    ensures NoStrayBreaks(r) && NewlinesPaired(r)
  {
    NormalizeTail(unicodeHead(raw))
  }

  // ---------------------------------------------------------------------
  // Pair lemmas

  lemma NoPairSuffix(s: string, a: char, b: char, k: nat)
    requires NoPair(s, a, b) && k <= |s|
    ensures NoPair(s[k..], a, b)
  {
    forall i | 0 < i < |s| - k ensures !(s[k..][i - 1] == a && s[k..][i] == b) {
      assert s[k..][i - 1] == s[k + i - 1];
    }
  }

  lemma NoPairConcat(x: string, y: string, a: char, b: char)
    requires NoPair(x, a, b) && NoPair(y, a, b)
    requires |x| > 0 && |y| > 0 ==> !(x[|x| - 1] == a && y[0] == b)
    ensures NoPair(x + y, a, b)
  {
    var s := x + y;
    forall i | 0 < i < |s| ensures !(s[i - 1] == a && s[i] == b) {
      if i < |x| {
        assert s[i - 1] == x[i - 1] && s[i] == x[i];
      } else if i > |x| {
        assert s[i - 1] == y[i - 1 - |x|] && s[i] == y[i - |x|];
      }
    }
  }

  lemma {:induction false} DropSpacesBeforeNewlineShape(s: string)
    ensures NoPair(DropSpacesBeforeNewline(s), ' ', '\n')
    decreases |s|
  {
    if |s| > 0 {
      var n := Run(s, ' ');
      if 0 < n < |s| && s[n] == '\n' {
        DropSpacesBeforeNewlineShape(s[n + 1..]);
        NoPairConcat("\n", DropSpacesBeforeNewline(s[n + 1..]), ' ', '\n');
      } else {
        var t := s[1..];
        var rt := DropSpacesBeforeNewline(t);
        DropSpacesBeforeNewlineShape(t);
        if s[0] == ' ' && |t| > 0 {
          // The run of spaces at the front is not closed by a newline, so
          // neither is the run that starts one character later.
          assert Run(t, ' ') == n - 1;
          assert rt[0] == t[0];
          assert t[0] != '\n';
        }
        NoPairConcat([s[0]], rt, ' ', '\n');
      }
    }
  }

  lemma DropSpacesAfterNewlineHead(s: string)
    requires |s| > 0
    ensures |DropSpacesAfterNewline(s)| > 0 && DropSpacesAfterNewline(s)[0] == s[0]
  {
  }

  lemma {:induction false} DropSpacesAfterNewlineShape(s: string)
    requires NoPair(s, ' ', '\n')
    ensures NoPair(DropSpacesAfterNewline(s), ' ', '\n')
    ensures NoPair(DropSpacesAfterNewline(s), '\n', ' ')
    decreases |s|
  {
    if |s| > 0 {
      if s[0] == '\n' {
        var t := s[1 + Run(s[1..], ' ')..];
        NoPairSuffix(s, ' ', '\n', 1 + Run(s[1..], ' '));
        DropSpacesAfterNewlineShape(t);
        var rt := DropSpacesAfterNewline(t);
        if |t| > 0 {
          DropSpacesAfterNewlineHead(t);
        }
        NoPairConcat("\n", rt, ' ', '\n');
        NoPairConcat("\n", rt, '\n', ' ');
      } else {
        var t := s[1..];
        NoPairSuffix(s, ' ', '\n', 1);
        DropSpacesAfterNewlineShape(t);
        var rt := DropSpacesAfterNewline(t);
        if |t| > 0 {
          DropSpacesAfterNewlineHead(t);
          assert s[1] == t[0];
        }
        NoPairConcat([s[0]], rt, ' ', '\n');
        NoPairConcat([s[0]], rt, '\n', ' ');
      }
    }
  }

  lemma CollapseNewlinesHead(s: string)
    requires |s| > 0
    ensures |CollapseNewlines(s)| > 0 && CollapseNewlines(s)[0] == s[0]
  {
  }

  lemma {:induction false} CollapseNewlinesShape(s: string)
    requires NoPair(s, ' ', '\n') && NoPair(s, '\n', ' ')
    ensures Tidy(CollapseNewlines(s))
    decreases |s|
  {
    if |s| > 0 {
      var k := if s[0] == '\n' then Run(s, '\n') else 1;
      var t := s[k..];
      NoPairSuffix(s, ' ', '\n', k);
      NoPairSuffix(s, '\n', ' ', k);
      CollapseNewlinesShape(t);
      var rt := CollapseNewlines(t);
      if |t| > 0 {
        CollapseNewlinesHead(t);
        assert t[0] == s[k] && (k == 1 || s[k - 1] == '\n');
      }
      var head := if s[0] == '\n' then "\n" else [s[0]];
      NoPairConcat(head, rt, ' ', '\n');
      NoPairConcat(head, rt, '\n', ' ');
      NoPairConcat(head, rt, '\n', '\n');
    }
  }

  // ---------------------------------------------------------------------
  // Fixed points of the collapses

  /** Text in which no space precedes a newline is left alone by the first
      collapse. */
  lemma {:induction false} DropSpacesBeforeNewlineFixed(s: string)
    requires NoPair(s, ' ', '\n')
    ensures DropSpacesBeforeNewline(s) == s
    decreases |s|
  {
    if |s| > 0 {
      var n := Run(s, ' ');
      assert !(0 < n < |s| && s[n] == '\n') by {
        if 0 < n < |s| {
          assert s[n - 1] == ' ';
        }
      }
      NoPairSuffix(s, ' ', '\n', 1);
      DropSpacesBeforeNewlineFixed(s[1..]);
      assert s == [s[0]] + s[1..];
    }
  }

  /** Text in which no space follows a newline is left alone by the second
      collapse. */
  lemma {:induction false} DropSpacesAfterNewlineFixed(s: string)
    requires NoPair(s, '\n', ' ')
    ensures DropSpacesAfterNewline(s) == s
    decreases |s|
  {
    if |s| > 0 {
      if s[0] == '\n' && |s| > 1 {
        assert s[1..][0] == s[1] != ' ';
      }
      NoPairSuffix(s, '\n', ' ', 1);
      DropSpacesAfterNewlineFixed(s[1..]);
      assert s == [s[0]] + s[1..];
    }
  }

  /** Text without adjacent newlines is left alone by the third collapse. */
  lemma {:induction false} CollapseNewlinesFixed(s: string)
    requires NoPair(s, '\n', '\n')
    ensures CollapseNewlines(s) == s
    decreases |s|
  {
    if |s| > 0 {
      if s[0] == '\n' {
        assert Run(s, '\n') == 1 by {
          if |s| > 1 {
            assert s[1] != '\n';
          }
        }
      }
      NoPairSuffix(s, '\n', '\n', 1);
      CollapseNewlinesFixed(s[1..]);
      assert s == [s[0]] + s[1..];
    }
  }

  /** Tidy text is a fixed point of the three whitespace collapses. */
  lemma CollapseWhitespaceFixed(s: string)
    requires Tidy(s)
    ensures CollapseWhitespace(s) == s
  {
    DropSpacesBeforeNewlineFixed(s);
    DropSpacesAfterNewlineFixed(s);
    CollapseNewlinesFixed(s);
  }

  /** The whitespace collapses are idempotent. */
  lemma CollapseWhitespaceIdempotent(s: string)
    ensures CollapseWhitespace(CollapseWhitespace(s)) == CollapseWhitespace(s)
  {
    CollapseWhitespaceFixed(CollapseWhitespace(s));
  }

  /** The adjacent pairs a tidy text may hold. */
  predicate TidyPair(x: char, y: char) {
    !(x == ' ' && y == '\n') && !(x == '\n' && y == ' ') && !(x == '\n' && y == '\n')
  }

  /** What is known of an adjacent pair `xy` of the text a replacement
      works on: it is tidy and, when the pair `ab` is being kept out, it is
      not `ab`. */
  predicate Allowed(x: char, y: char, a: char, b: char, keep: bool) {
    TidyPair(x, y) && (keep ==> !(x == a && y == b))
  }

  lemma AllowedAt(s: string, i: int, a: char, b: char, keep: bool)
    requires Tidy(s) && (keep ==> NoPair(s, a, b)) && 0 < i < |s|
    ensures Allowed(s[i - 1], s[i], a, b, keep)
  {
  }

  lemma OccursEnds(s: string, pat: string, i: int)
    requires |pat| > 0 && OccursAt(s, pat, i)
    ensures s[i] == pat[0] && s[i + |pat| - 1] == pat[|pat| - 1]
  {
    assert s[i..i + |pat|][0] == s[i];
    assert s[i..i + |pat|][|pat| - 1] == s[i + |pat| - 1];
  }

  /** A replacement over a tidy text keeps the pair `ab` out of the result,
      when the replacement text holds no `ab` and none can form where it
      meets its neighbours. With `keep` the pair is absent beforehand; without
      it, `ab` is the pattern itself and every occurrence of it is replaced. */
  lemma {:induction false} ReplacePair(s: string, pat: string, rep: string, a: char, b: char, keep: bool)
    requires |pat| > 0 && |rep| > 0 && Tidy(s)
    requires if keep then NoPair(s, a, b) else pat == [a, b]
    requires NoPair(rep, a, b)
    requires forall x :: Allowed(x, pat[0], a, b, keep) ==> !(x == a && rep[0] == b)
    requires forall y :: Allowed(Last(pat), y, a, b, keep) ==> !(Last(rep) == a && y == b)
    requires Allowed(Last(pat), pat[0], a, b, keep) ==> !(Last(rep) == a && rep[0] == b)
    ensures NoPair(Replace(s, pat, rep), a, b)
    decreases |s|
  {
    if |s| >= |pat| {
      var m := s[..|pat|] == pat;
      var k := if m then |pat| else 1;
      var t := s[k..];
      NoPairSuffix(s, ' ', '\n', k);
      NoPairSuffix(s, '\n', ' ', k);
      NoPairSuffix(s, '\n', '\n', k);
      if keep {
        NoPairSuffix(s, a, b, k);
      }
      ReplacePair(t, pat, rep, a, b, keep);
      if m {
        ReplacePairMatched(s, pat, rep, a, b, keep);
      } else {
        ReplacePairSkipped(s, pat, rep, a, b, keep);
      }
    }
  }

  /** The step of `ReplacePair` where the pattern stands at the front. */
  lemma ReplacePairMatched(s: string, pat: string, rep: string, a: char, b: char, keep: bool)
    requires |pat| > 0 && |rep| > 0 && Tidy(s)
    requires keep ==> NoPair(s, a, b)
    requires NoPair(rep, a, b)
    requires forall y :: Allowed(Last(pat), y, a, b, keep) ==> !(Last(rep) == a && y == b)
    requires Allowed(Last(pat), pat[0], a, b, keep) ==> !(Last(rep) == a && rep[0] == b)
    requires |s| >= |pat| && s[..|pat|] == pat
    requires NoPair(Replace(s[|pat|..], pat, rep), a, b)
    ensures NoPair(Replace(s, pat, rep), a, b)
  {
    var t := s[|pat|..];
    var rt := Replace(t, pat, rep);
    assert |rt| > 0 ==> !(rep[|rep| - 1] == a && rt[0] == b) by {
      if |t| > 0 {
        assert OccursAt(s, pat, 0);
        OccursEnds(s, pat, 0);
        ReplaceHead(t, pat, rep);
        AllowedAt(s, |pat|, a, b, keep);
        assert s[|pat| - 1] == Last(pat) && s[|pat|] == t[0];
        if OccursAt(t, pat, 0) {
          OccursEnds(t, pat, 0);
          assert rt[0] == rep[0];
        } else {
          assert rt[0] == t[0];
        }
      }
    }
    assert NoPair(rep + rt, a, b) by {
      NoPairConcat(rep, rt, a, b);
    }
    assert Replace(s, pat, rep) == rep + rt;
  }

  /** The step of `ReplacePair` where the front character is kept. */
  lemma ReplacePairSkipped(s: string, pat: string, rep: string, a: char, b: char, keep: bool)
    requires |pat| > 0 && |rep| > 0 && Tidy(s)
    requires if keep then NoPair(s, a, b) else pat == [a, b]
    requires forall x :: Allowed(x, pat[0], a, b, keep) ==> !(x == a && rep[0] == b)
    requires |s| >= |pat| && s[..|pat|] != pat
    requires NoPair(Replace(s[1..], pat, rep), a, b)
    ensures NoPair(Replace(s, pat, rep), a, b)
  {
    var t := s[1..];
    var rt := Replace(t, pat, rep);
    assert |rt| > 0 ==> !(s[0] == a && rt[0] == b) by {
      if |t| > 0 {
        ReplaceHead(t, pat, rep);
        assert s[1] == t[0];
        if OccursAt(t, pat, 0) {
          OccursEnds(t, pat, 0);
          AllowedAt(s, 1, a, b, keep);
          assert rt[0] == rep[0];
        } else if keep {
          assert rt[0] == s[1];
        } else {
          assert rt[0] == s[1];
          assert s[..2] == [s[0], s[1]];
        }
      }
    }
    assert NoPair([s[0]] + rt, a, b) by {
      NoPairConcat([s[0]], rt, a, b);
    }
    assert Replace(s, pat, rep) == [s[0]] + rt;
  }

  lemma RepairHeadingsShape(s: string)
    requires Tidy(s)
    ensures Tidy(Replace(Replace(Replace(Replace(s, "\n.\n", ".\n"), "\nI\nTEM", "\nITEM"), "\nITEM\n", "\nITEM "), "\nITEM  ", "\nITEM "))
  {
    var d := Replace(s, "\n.\n", ".\n");
    KeepTidy(s, "\n.\n", ".\n");
    var e := Replace(d, "\nI\nTEM", "\nITEM");
    KeepTidy(d, "\nI\nTEM", "\nITEM");
    var f := Replace(e, "\nITEM\n", "\nITEM ");
    KeepTidy(e, "\nITEM\n", "\nITEM ");
    KeepTidy(f, "\nITEM  ", "\nITEM ");
  }

  /** The tidy shape survives a replacement whose edges can only meet
      neighbours that the pattern's own edges could meet in a tidy text. */
  lemma KeepTidy(s: string, pat: string, rep: string)
    requires Tidy(s) && Tidy(rep) && |pat| > 0 && |rep| > 0
    requires forall x :: TidyPair(x, pat[0]) ==> TidyPair(x, rep[0])
    requires forall y :: TidyPair(Last(pat), y) ==> TidyPair(Last(rep), y)
    requires TidyPair(Last(pat), pat[0]) ==> TidyPair(Last(rep), rep[0])
    ensures Tidy(Replace(s, pat, rep))
  {
    ReplacePair(s, pat, rep, ' ', '\n', true);
    ReplacePair(s, pat, rep, '\n', ' ', true);
    ReplacePair(s, pat, rep, '\n', '\n', true);
  }

  lemma RepairSymbolsShape(s: string)
    requires Tidy(s)
    ensures var r := Replace(Replace(Replace(s, ":\n", ".\n"), "$\n", "$"), "\n%", "%");
      Tidy(r) && NoStrayBreaks(r)
  {
    var h := Replace(s, ":\n", ".\n");
    KeepTidy(s, ":\n", ".\n");
    ReplacePair(s, ":\n", ".\n", ':', '\n', false);
    var i := Replace(h, "$\n", "$");
    KeepTidy(h, "$\n", "$");
    ReplacePair(h, "$\n", "$", ':', '\n', true);
    ReplacePair(h, "$\n", "$", '$', '\n', false);
    KeepTidy(i, "\n%", "%");
    ReplacePair(i, "\n%", "%", ':', '\n', true);
    ReplacePair(i, "\n%", "%", '$', '\n', true);
    ReplacePair(i, "\n%", "%", '\n', '%', false);
  }

  lemma DoubleKeepsNoStrayBreaks(s: string)
    requires Tidy(s) && NoStrayBreaks(s)
    ensures NoStrayBreaks(Replace(s, "\n", "\n\n"))
  {
    ReplacePair(s, "\n", "\n\n", ':', '\n', true);
    ReplacePair(s, "\n", "\n\n", '$', '\n', true);
    ReplacePair(s, "\n", "\n\n", '\n', '%', true);
    ReplacePair(s, "\n", "\n\n", ' ', '\n', true);
    ReplacePair(s, "\n", "\n\n", '\n', ' ', true);
  }

  lemma PairedConcat(x: string, y: string)
    requires NewlinesPaired(x) && NewlinesPaired(y)
    requires !(|x| > 0 && |y| > 0 && x[|x| - 1] == '\n' && y[0] == '\n')
    ensures NewlinesPaired(x + y)
  {
    var s := x + y;
    forall i | RunStart(s, i)
      ensures i + 1 < |s| && s[i + 1] == '\n' && (i + 2 == |s| || s[i + 2] != '\n')
    {
      if i < |x| {
        assert RunStart(x, i) by {
          assert x[i] == '\n';
          assert i == 0 || x[i - 1] == s[i - 1];
        }
        assert i + 1 < |x| && x[i + 1] == '\n';
        assert s[i + 1] == x[i + 1];
        if i + 2 < |x| {
          assert s[i + 2] == x[i + 2];
        } else if |y| > 0 {
          assert s[i + 2] == y[0];
        }
      } else {
        var j := i - |x|;
        assert RunStart(y, j) by {
          assert y[j] == '\n';
          assert j == 0 || y[j - 1] == s[i - 1];
        }
        assert j + 1 < |y| && y[j + 1] == '\n';
        assert s[i + 1] == y[j + 1];
        if j + 2 < |y| {
          assert s[i + 2] == y[j + 2];
        }
      }
    }
  }

  lemma {:induction false} DoubleNewlinesShape(s: string)
    requires NoPair(s, '\n', '\n')
    ensures NewlinesPaired(Replace(s, "\n", "\n\n"))
    decreases |s|
  {
    if |s| > 0 {
      var t := s[1..];
      NoPairSuffix(s, '\n', '\n', 1);
      DoubleNewlinesShape(t);
      var rt := Replace(t, "\n", "\n\n");
      if |t| > 0 {
        ReplaceHead(t, "\n", "\n\n");
        assert OccursAt(t, "\n", 0) <==> t[0] == '\n';
      }
      if s[0] == '\n' {
        assert s[..1] == "\n";
        assert NewlinesPaired("\n\n");
        PairedConcat("\n\n", rt);
      } else {
        assert s[..1] != "\n";
        PairedConcat([s[0]], rt);
      }
    }
  }

  // ---------------------------------------------------------------------
  // Normalisation is not idempotent

  /** Two lines holding only a period, after a line break and before a
      line "Y". */
  const Stacked: string := "\n.\n.\nY"

  /** The heading repairs on `Stacked` join only the first period line: the
      two occurrences of "\n.\n" overlap and the scan takes the leftmost. */
  lemma StackedHeadings()
    ensures RepairHeadings(Stacked) == ".\n.\nY"
  {
    assert Replace(Stacked, "\n.\n", ".\n") == ".\n.\nY";
    ReplaceMissing(".\n.\nY", "\nI\nTEM", "\nITEM", 'I');
    ReplaceMissing(".\n.\nY", "\nITEM\n", "\nITEM ", 'I');
    ReplaceMissing(".\n.\nY", "\nITEM  ", "\nITEM ", 'I');
  }

  /** The heading repairs on ".\n.\nY" join the remaining period line. */
  lemma RestackedHeadings()
    ensures RepairHeadings(".\n.\nY") == "..\nY"
  {
    assert Replace(".\n.\nY", "\n.\n", ".\n") == "..\nY";
    ReplaceMissing("..\nY", "\nI\nTEM", "\nITEM", 'I');
    ReplaceMissing("..\nY", "\nITEM\n", "\nITEM ", 'I');
    ReplaceMissing("..\nY", "\nITEM  ", "\nITEM ", 'I');
  }

  /** Text without colons, dollar signs and percent signs is left alone by
      the symbol repairs. */
  lemma RepairSymbolsAbsent(s: string)
    requires ':' !in s && '$' !in s && '%' !in s
    ensures RepairSymbols(s) == s
  {
    ReplaceMissing(s, ":\n", ".\n", ':');
    ReplaceMissing(s, "$\n", "$", '$');
    ReplaceMissing(s, "\n%", "%", '%');
  }

  /** The symbol repairs leave both joined texts alone. */
  lemma StackedSymbols()
    ensures RepairSymbols(".\n.\nY") == ".\n.\nY"
    ensures RepairSymbols("..\nY") == "..\nY"
  {
    RepairSymbolsAbsent(".\n.\nY");
    RepairSymbolsAbsent("..\nY");
  }

  /** Doubling the newlines of ".\n.\nY". */
  lemma StackedDoubled()
    ensures DoubleNewlines(".\n.\nY") == ".\n\n.\n\nY"
  {
    DoubleBetween('.', '.', 'Y');
    assert ['.'] + "\n" + ['.'] + "\n" + ['Y'] == ".\n.\nY";
    assert ['.'] + "\n\n" + ['.'] + "\n\n" + ['Y'] == ".\n\n.\n\nY";
  }

  /** Doubling the newline of "..\nY". */
  lemma RestackedDoubled()
    ensures DoubleNewlines("..\nY") == "..\n\nY"
  {
    assert Replace("\nY", "\n", "\n\n") == "\n\nY" by {
      DoubleStep('Y', "");
      assert ['Y'] + "" == "Y";
      DoubleStep('\n', "Y");
    }
    DoubleStep('.', "\nY");
    DoubleStep('.', ".\nY");
  }

  /** Doubling the newlines of three characters other than newlines with a
      newline between each two. */
  lemma DoubleBetween(a: char, b: char, c: char)
    requires a != '\n' && b != '\n' && c != '\n'
    ensures DoubleNewlines([a] + "\n" + [b] + "\n" + [c]) == [a] + "\n\n" + [b] + "\n\n" + [c]
  {
    var t1 := "\n" + [c];
    var t2 := [b] + t1;
    var t3 := "\n" + t2;
    assert Replace([c], "\n", "\n\n") == [c] by {
      DoubleStep(c, "");
      assert [c] + "" == [c];
    }
    assert Replace(t1, "\n", "\n\n") == "\n\n" + [c] by {
      DoubleStep('\n', [c]);
    }
    assert Replace(t2, "\n", "\n\n") == [b] + ("\n\n" + [c]) by {
      DoubleStep(b, t1);
    }
    assert Replace(t3, "\n", "\n\n") == "\n\n" + ([b] + ("\n\n" + [c])) by {
      DoubleStep('\n', t2);
    }
    assert Replace([a] + t3, "\n", "\n\n") == [a] + ("\n\n" + ([b] + ("\n\n" + [c]))) by {
      DoubleStep(a, t3);
    }
    assert [a] + t3 == [a] + "\n" + [b] + "\n" + [c];
    assert [a] + ("\n\n" + ([b] + ("\n\n" + [c]))) == [a] + "\n\n" + [b] + "\n\n" + [c];
  }

  /** One character of newline doubling. */
  lemma DoubleStep(x: char, t: string)
    ensures Replace([x] + t, "\n", "\n\n") == (if x == '\n' then "\n\n" else [x]) + Replace(t, "\n", "\n\n")
  {
    assert "\n" == ['\n'];
    ReplaceCharStep([x] + t, '\n', "\n\n");
    assert ([x] + t)[1..] == t;
  }

  /** `Stacked` is already tidy, so the whitespace collapse keeps it. */
  lemma StackedCollapsed()
    ensures CollapseWhitespace(Stacked) == Stacked
  {
    assert Tidy(Stacked);
    CollapseWhitespaceFixed(Stacked);
  }

  /** The newline collapse on ".\n\n.\n\nY" merges each newline pair. */
  lemma DoubledNewlinesCollapsed()
    ensures CollapseNewlines(".\n\n.\n\nY") == ".\n.\nY"
  {
    CollapseDoubled('.', '.', 'Y');
    assert ['.'] + "\n\n" + ['.'] + "\n\n" + ['Y'] == ".\n\n.\n\nY";
    assert ['.'] + "\n" + ['.'] + "\n" + ['Y'] == ".\n.\nY";
  }

  /** Three characters other than newlines, separated by newline pairs. */
  lemma CollapseDoubled(a: char, b: char, c: char)
    requires a != '\n' && b != '\n' && c != '\n'
    ensures CollapseNewlines([a] + "\n\n" + [b] + "\n\n" + [c]) == [a] + "\n" + [b] + "\n" + [c]
  {
    var t := [b] + "\n\n" + [c];
    CollapseDoubledTail(b, c);
    CollapsePair(t);
    CollapseKeeps(a, "\n\n" + t);
    assert [a] + "\n\n" + [b] + "\n\n" + [c] == [a] + ("\n\n" + t);
    assert [a] + ("\n" + ([b] + "\n" + [c])) == [a] + "\n" + [b] + "\n" + [c];
  }

  /** Two characters other than newlines, separated by a newline pair. */
  lemma CollapseDoubledTail(b: char, c: char)
    requires b != '\n' && c != '\n'
    ensures CollapseNewlines([b] + "\n\n" + [c]) == [b] + "\n" + [c]
  {
    assert CollapseNewlines([c]) == [c] by {
      CollapseKeeps(c, "");
      assert [c] + "" == [c];
    }
    CollapsePair([c]);
    CollapseKeeps(b, "\n\n" + [c]);
    assert [b] + "\n\n" + [c] == [b] + ("\n\n" + [c]);
    assert [b] + ("\n" + [c]) == [b] + "\n" + [c];
  }

  /** A character other than a newline passes through the newline collapse. */
  lemma CollapseKeeps(c: char, t: string)
    requires c != '\n'
    ensures CollapseNewlines([c] + t) == [c] + CollapseNewlines(t)
  {
    assert ([c] + t)[1..] == t;
  }

  /** Two newlines before a non-newline become one. */
  lemma CollapsePair(t: string)
    requires |t| > 0 && t[0] != '\n'
    ensures CollapseNewlines("\n\n" + t) == "\n" + CollapseNewlines(t)
  {
    var s := "\n\n" + t;
    assert s[1..] == "\n" + t && (s[1..])[1..] == t;
    assert Run(s, '\n') == 2;
    assert s[2..] == t;
  }

  /** The whitespace collapse on ".\n\n.\n\nY" merges each newline pair. */
  lemma DoubledCollapsed()
    ensures CollapseWhitespace(".\n\n.\n\nY") == ".\n.\nY"
  {
    var t := ".\n\n.\n\nY";
    assert NoPair(t, ' ', '\n') && NoPair(t, '\n', ' ');
    DropSpacesBeforeNewlineFixed(t);
    DropSpacesAfterNewlineFixed(t);
    DoubledNewlinesCollapsed();
  }

  /** A pass of the normalisation, stage by stage. */
  lemma NormalizeTailStages(s: string, a: string, b: string, c: string, d: string)
    requires CollapseWhitespace(s) == a && RepairHeadings(a) == b
    requires RepairSymbols(b) == c && DoubleNewlines(c) == d
    ensures NormalizeTail(s) == d
  {
  }

  /** One pass over `Stacked`. */
  lemma StackedOnce()
    ensures NormalizeTail(Stacked) == ".\n\n.\n\nY"
  {
    StackedCollapsed();
    StackedHeadings();
    StackedSymbols();
    StackedDoubled();
    NormalizeTailStages(Stacked, Stacked, ".\n.\nY", ".\n.\nY", ".\n\n.\n\nY");
  }

  /** A second pass over the result of the first. */
  lemma StackedTwice()
    ensures NormalizeTail(".\n\n.\n\nY") == "..\n\nY"
  {
    DoubledCollapsed();
    RestackedHeadings();
    StackedSymbols();
    RestackedDoubled();
    NormalizeTailStages(".\n\n.\n\nY", ".\n.\nY", "..\nY", "..\nY", "..\n\nY");
  }

  /** Lines 304-322 applied twice can differ from applying them once: the
      first pass leaves a period line that the second pass joins. */
  lemma NormalizeNotIdempotent()
    ensures NormalizeTail(NormalizeTail(Stacked)) != NormalizeTail(Stacked)
  {
    StackedOnce();
    StackedTwice();
    assert |"..\n\nY"| != |".\n\n.\n\nY"|;
  }

  /** The whole normalisation is not idempotent either, for any Unicode head
      that leaves upper-case ASCII text with inner line breaks unchanged, as
      NFKD, `splitlines` joined with newlines, and `upper` do. */
  lemma NormalizeTwiceDiffers(unicodeHead: string -> string)
    requires unicodeHead(Stacked) == Stacked
    requires unicodeHead(".\n\n.\n\nY") == ".\n\n.\n\nY"
    ensures Normalize(unicodeHead, Normalize(unicodeHead, Stacked)) != Normalize(unicodeHead, Stacked)
  {
    NormalizeNotIdempotent();
    StackedOnce();
  }
}

=== FILE: pystr.dfy ===
/** The Python `str` operations the extractor is built from, defined over
    `string` (a sequence of Unicode scalar values): `isspace`, `find`, `in`,
    `replace`, `split()` and `split(sep)`, `join`, `strip` and slicing. */
module PyStr {

  /** Python's `str.isspace()`, the character set that `split()` and
      `strip()` treat as whitespace. */
  predicate IsSpace(c: char) {
    || ('\t' <= c <= '\r')
    || ('\U{1C}' <= c <= ' ')
    || c == '\U{85}' || c == '\U{A0}' || c == '\U{1680}'
    || ('\U{2000}' <= c <= '\U{200A}')
    || c == '\U{2028}' || c == '\U{2029}' || c == '\U{202F}'
    || c == '\U{205F}' || c == '\U{3000}'
  }

  predicate NoSpace(s: string) {
    forall i :: 0 <= i < |s| ==> !IsSpace(s[i])
  }

  /** `p` occurs in `s` starting at index `i`. */
  predicate OccursAt(s: string, p: string, i: int) {
    0 <= i && i + |p| <= |s| && s[i..i + |p|] == p
  }

  lemma OccursShift(s: string, p: string, k: nat, i: int)
    requires k <= |s|
    ensures OccursAt(s[k..], p, i) <==> OccursAt(s, p, i + k) && i >= 0
  {
    if 0 <= i && i + |p| <= |s| - k {
      assert s[k..][i..i + |p|] == s[i + k..i + k + |p|];
    }
  }

  lemma OccursPrefix(s: string, p: string, n: nat, i: int)
    requires n <= |s|
    ensures OccursAt(s[..n], p, i) <==> OccursAt(s, p, i) && i + |p| <= n
  {
    if 0 <= i && i + |p| <= n {
      assert s[..n][i..i + |p|] == s[i..i + |p|];
    }
  }

  /** Python's `s.find(p, from)` for a non-negative start: the least index
      at or after `from` where `p` occurs, or -1. */
  function Find(s: string, p: string, from: nat): (r: int)
    ensures r == -1 || (from <= r && OccursAt(s, p, r))
    ensures forall i :: from <= i && (r == -1 || i < r) ==> !OccursAt(s, p, i)
    decreases |s| - from
  {
    if from + |p| > |s| then -1
    else if s[from..from + |p|] == p then from
    else Find(s, p, from + 1)
  }

  /** Python's `p in s`. */
  predicate Contains(s: string, p: string) {
    Find(s, p, 0) != -1
  }

  lemma ContainsAt(s: string, p: string, i: int)
    requires OccursAt(s, p, i)
    ensures Contains(s, p)
  {
  }

  /** Python's `s.replace(pat, rep)`: scanning left to right, each leftmost
      non-overlapping occurrence of `pat` becomes `rep`; an empty `pat`
      matches before every character and at the end. */
  function Replace(s: string, pat: string, rep: string): (r: string)
    ensures |pat| > 0 && (forall i :: !OccursAt(s, pat, i)) ==> r == s
    decreases |s|
  {
    if |pat| == 0 then
      if |s| == 0 then rep else rep + [s[0]] + Replace(s[1..], pat, rep)
    else if |s| < |pat| then s
    else if s[..|pat|] == pat then
      assert OccursAt(s, pat, 0);
      rep + Replace(s[|pat|..], pat, rep)
    else
      var rest := Replace(s[1..], pat, rep);
      assert (forall i :: !OccursAt(s, pat, i)) ==> forall i :: !OccursAt(s[1..], pat, i) by {
        forall i ensures OccursAt(s[1..], pat, i) ==> OccursAt(s, pat, i + 1) {
          OccursShift(s, pat, 1, i);
        }
      }
      [s[0]] + rest
  }

  /** The first character of a replacement result: either the replacement
      text (when `pat` occurs at the front) or the original first character. */
  lemma ReplaceHead(s: string, pat: string, rep: string)
    requires |pat| > 0 && |rep| > 0 && |s| > 0
    ensures var r := Replace(s, pat, rep);
      |r| > 0 && r[0] == (if OccursAt(s, pat, 0) then rep[0] else s[0])
  {
  }

  /** Replacing one character by one character is a character-wise map. */
  lemma {:induction false} ReplaceCharMap(s: string, a: char, b: char)
    ensures var r := Replace(s, [a], [b]);
      && |r| == |s|
      && forall i :: 0 <= i < |s| ==> r[i] == (if s[i] == a then b else s[i])
    decreases |s|
  {
    if |s| > 0 {
      ReplaceCharMap(s[1..], a, b);
      if s[..1] == [a] {
        assert s[1..] == s[|[a]|..];
      }
    }
  }

  /** Replacing one character by another moves every occurrence of the first
      onto the count of the second. */
  lemma {:induction false} ReplaceCharCount(s: string, a: char, b: char)
    requires a != b
    ensures var r := Replace(s, [a], [b]);
      multiset(r)[b] == multiset(s)[b] + multiset(s)[a] && multiset(r)[a] == 0
    decreases |s|
  {
    if |s| > 0 {
      ReplaceCharCount(s[1..], a, b);
      var rest := Replace(s[1..], [a], [b]);
      assert s == [s[0]] + s[1..];
      if s[..1] == [a] {
        assert s[1..] == s[|[a]|..];
        assert Replace(s, [a], [b]) == [b] + rest;
      } else {
        assert Replace(s, [a], [b]) == [s[0]] + rest;
      }
    }
  }

  /** Replacing a single character distributes over concatenation. */
  lemma ReplaceCharConcat(x: string, y: string, a: char, b: char)
    ensures Replace(x + y, [a], [b]) == Replace(x, [a], [b]) + Replace(y, [a], [b])
  {
    var s := x + y;
    ReplaceCharMap(s, a, b);
    ReplaceCharMap(x, a, b);
    ReplaceCharMap(y, a, b);
    var l := Replace(s, [a], [b]);
    var r := Replace(x, [a], [b]) + Replace(y, [a], [b]);
    forall i | 0 <= i < |s| ensures l[i] == r[i] {
      if i < |x| {
        assert s[i] == x[i];
      } else {
        assert s[i] == y[i - |x|];
      }
    }
  }

  /** An occurrence of a word free of the replaced character survives the
      replacement at the same place. */
  lemma ReplaceCharKeepsOccurrence(s: string, a: char, b: char, w: string, i: int)
    requires a !in w
    requires OccursAt(s, w, i)
    ensures OccursAt(Replace(s, [a], [b]), w, i)
  {
    var r := Replace(s, [a], [b]);
    ReplaceCharMap(s, a, b);
    forall j | 0 <= j < |w| ensures r[i + j] == w[j] {
      assert s[i..i + |w|][j] == s[i + j];
      assert w[j] in w;
    }
    assert r[i..i + |w|] == w;
  }

  /** A pattern holding a character the text lacks never occurs, so the
      replacement changes nothing. */
  lemma ReplaceMissing(s: string, pat: string, rep: string, c: char)
    requires c in pat && c !in s
    ensures Replace(s, pat, rep) == s
  {
    assert forall i :: !OccursAt(s, pat, i);
  }

  /** Replacing a character that does not occur changes nothing. */
  lemma ReplaceAbsentChar(s: string, a: char, rep: string)
    requires a !in s
    ensures Replace(s, [a], rep) == s
  {
    forall i ensures !OccursAt(s, [a], i) {
      if 0 <= i && i + 1 <= |s| {
        assert s[i..i + 1][0] == s[i];
      }
    }
  }

  /** Replacing a character by nothing deletes it and keeps the rest. */
  lemma {:induction false} ReplaceDropChar(s: string, a: char)
    ensures var r := Replace(s, [a], "");
      a !in r && forall x :: x in r ==> x in s
    decreases |s|
  {
    if |s| > 0 {
      ReplaceDropChar(s[1..], a);
      assert forall x :: x in s[1..] ==> x in s;
      if s[..1] != [a] {
        assert Replace(s, [a], "") == [s[0]] + Replace(s[1..], [a], "");
      } else {
        assert s[1..] == s[|[a]|..];
      }
    }
  }

  /** The characters of `s` other than `a`, in order. */
  function Without(s: string, a: char): (r: string)
    ensures a !in r
    decreases |s|
  {
    if |s| == 0 then "" else (if s[0] == a then "" else [s[0]]) + Without(s[1..], a)
  }

  /** Replacing a character by nothing keeps the other characters in order. */
  lemma {:induction false} ReplaceDropWithout(s: string, a: char)
    ensures Replace(s, [a], "") == Without(s, a)
    decreases |s|
  {
    if |s| > 0 {
      ReplaceDropWithout(s[1..], a);
      ReplaceCharStep(s, a, "");
    }
  }

  /** One step of a one-character replacement. */
  lemma ReplaceCharStep(s: string, a: char, rep: string)
    requires |s| > 0
    ensures Replace(s, [a], rep) == (if s[0] == a then rep else [s[0]]) + Replace(s[1..], [a], rep)
  {
    if s[..1] == [a] {
      assert s[1..] == s[|[a]|..];
    }
  }

  /** Python's `s.startswith(p)`. */
  predicate StartsWith(s: string, p: string) {
    OccursAt(s, p, 0)
  }

  /** A text cannot start with two prefixes that differ at a common index. */
  lemma StartsWithDiffer(s: string, p: string, q: string, i: nat)
    requires StartsWith(s, p) && i < |p| && i < |q| && p[i] != q[i]
    ensures !StartsWith(s, q)
  {
    assert s[i] == s[..|p|][i];
    if |q| <= |s| {
      assert s[i] == s[..|q|][i];
    }
  }

  /** A character found in a contained pattern is found in the text. */
  lemma ContainsChar(s: string, p: string, c: char)
    requires Contains(s, p) && c in p
    ensures c in s
  {
    var r := Find(s, p, 0);
    var j :| 0 <= j < |p| && p[j] == c;
    assert s[r..r + |p|][j] == s[r + j];
  }

  /** Length of the leading run of non-whitespace characters. */
  function WordLen(s: string): (n: nat)
    ensures n <= |s|
    ensures forall i :: 0 <= i < n ==> !IsSpace(s[i])
    ensures n < |s| ==> IsSpace(s[n])
  {
    if |s| == 0 || IsSpace(s[0]) then 0 else 1 + WordLen(s[1..])
  }

  /** Python's `s.split()` with no separator: the maximal runs of
      non-whitespace characters, in order. */
  function Split(s: string): (r: seq<string>)
    ensures forall k :: 0 <= k < |r| ==> |r[k]| > 0 && NoSpace(r[k])
    decreases |s|
  {
    if |s| == 0 then []
    else if IsSpace(s[0]) then Split(s[1..])
    else
      var n := WordLen(s);
      [s[..n]] + Split(s[n..])
  }

  /** The leading word of `a` is unchanged by what follows `a` when it ends
      inside `a`, or when what follows starts with whitespace. */
  lemma {:induction false} WordLenConcat(a: string, rest: string)
    requires WordLen(a) < |a| || (|rest| > 0 && IsSpace(rest[0]))
    ensures WordLen(a + rest) == WordLen(a)
    decreases |a|
  {
    if |a| > 0 && !IsSpace(a[0]) {
      assert (a + rest)[1..] == a[1..] + rest;
      WordLenConcat(a[1..], rest);
    }
  }

  /** A non-empty text without whitespace is a single token. */
  lemma SplitWord(w: string)
    requires |w| > 0 && NoSpace(w)
    ensures Split(w) == [w]
  {
    WordLenOfWord(w);
    assert w[..|w|] == w && w[|w|..] == "";
  }

  /** A whitespace character separates tokens: the tokens of `a` followed
      by a text `t` that starts with whitespace are those of `a`, then those
      of the rest of `t`, whatever other whitespace surrounds the break.
      Together with `SplitWord` and `Split("") == []` this pins the tokens
      down to the maximal runs of non-whitespace characters. */
  lemma {:induction false} SplitAtSpace(a: string, t: string)
    requires |t| > 0 && IsSpace(t[0])
    ensures Split(a + t) == Split(a) + Split(t[1..])
    decreases |a|
  {
    if |a| == 0 {
      assert a + t == t;
    } else if IsSpace(a[0]) {
      SplitSkipSpace(a, t);
      SplitAtSpace(a[1..], t);
    } else {
      var n := SplitLeadingWord(a, t);
      SplitAtSpace(a[n..], t);
      SeqAssoc([a[..n]], Split(a[n..]), Split(t[1..]));
    }
  }

  lemma SeqAssoc<T>(x: seq<T>, y: seq<T>, z: seq<T>)
    ensures x + (y + z) == (x + y) + z
  {
  }

  /** A leading whitespace character of `a` is skipped, with or without `t`
      after it. */
  lemma SplitSkipSpace(a: string, t: string)
    requires |a| > 0 && IsSpace(a[0])
    ensures Split(a) == Split(a[1..])
    ensures Split(a + t) == Split(a[1..] + t)
  {
    assert (a + t)[1..] == a[1..] + t;
  }

  /** The first token of `a + t`, when `a` starts with one and `t` starts
      with whitespace, is the first token of `a`. */
  lemma SplitLeadingWord(a: string, t: string) returns (n: nat)
    requires |a| > 0 && !IsSpace(a[0]) && |t| > 0 && IsSpace(t[0])
    ensures 0 < n <= |a| && n == WordLen(a)
    ensures Split(a) == [a[..n]] + Split(a[n..])
    ensures Split(a + t) == [a[..n]] + Split(a[n..] + t)
  {
    n := WordLen(a);
    WordLenConcat(a, t);
    assert (a + t)[..n] == a[..n];
    assert (a + t)[n..] == a[n..] + t;
  }

  /** Python's `sep.join(ps)`. */
  function Join(ps: seq<string>, sep: string): string {
    if |ps| == 0 then ""
    else if |ps| == 1 then ps[0]
    else ps[0] + sep + Join(ps[1..], sep)
  }

  lemma {:induction false} WordLenOfWordThenSpace(w: string, rest: string)
    requires NoSpace(w)
    requires |rest| > 0 && IsSpace(rest[0])
    ensures WordLen(w + rest) == |w|
    decreases |w|
  {
    if |w| > 0 {
      assert (w + rest)[1..] == w[1..] + rest;
      WordLenOfWordThenSpace(w[1..], rest);
    }
  }

  lemma {:induction false} WordLenOfWord(w: string)
    requires NoSpace(w)
    ensures WordLen(w) == |w|
    decreases |w|
  {
    if |w| > 0 {
      WordLenOfWord(w[1..]);
    }
  }

  /** Splitting words joined by single spaces gives the words back, when
      every word is non-empty and free of whitespace. */
  lemma {:induction false} SplitJoinRoundTrip(words: seq<string>)
    requires forall k :: 0 <= k < |words| ==> |words[k]| > 0 && NoSpace(words[k])
    ensures Split(Join(words, " ")) == words
    decreases |words|
  {
    if |words| == 1 {
      SplitWord(words[0]);
    } else if |words| > 1 {
      var w := words[0];
      var tail := Join(words[1..], " ");
      assert Join(words, " ") == w + (" " + tail);
      SplitAtSpace(w, " " + tail);
      assert (" " + tail)[1..] == tail;
      SplitWord(w);
      SplitJoinRoundTrip(words[1..]);
      assert words == [w] + words[1..];
    }
  }

  /** Python's `s.split(sep)` for a one-character separator: the pieces
      between separators, empty pieces included. */
  function SplitOn(s: string, sep: char): (r: seq<string>)
    ensures |r| > 0
    ensures forall k :: 0 <= k < |r| ==> sep !in r[k]
    decreases |s|
  {
    if |s| == 0 then [""]
    else
      var rest := SplitOn(s[1..], sep);
      if s[0] == sep then [""] + rest
      else [[s[0]] + rest[0]] + rest[1..]
  }

  /** Every piece of a split is made of characters of the text. */
  lemma {:induction false} SplitOnChars(s: string, sep: char, c: char)
    requires c !in s
    ensures forall k :: 0 <= k < |SplitOn(s, sep)| ==> c !in SplitOn(s, sep)[k]
    decreases |s|
  {
    if |s| > 0 {
      assert c !in s[1..] by {
        assert forall x :: x in s[1..] ==> x in s;
      }
      SplitOnChars(s[1..], sep, c);
    }
  }

  /** A split yields one more piece than there are separators. */
  lemma {:induction false} SplitOnCount(s: string, sep: char)
    ensures |SplitOn(s, sep)| == multiset(s)[sep] + 1
    decreases |s|
  {
    if |s| > 0 {
      SplitOnCount(s[1..], sep);
      assert s == [s[0]] + s[1..];
    }
  }

  lemma JoinCons(p: string, ps: seq<string>, sep: string)
    requires |ps| > 0
    ensures Join([p] + ps, sep) == p + sep + Join(ps, sep)
  {
    assert ([p] + ps)[1..] == ps;
  }

  lemma JoinExtendFirst(c: char, ps: seq<string>, sep: string)
    requires |ps| > 0
    ensures Join([[c] + ps[0]] + ps[1..], sep) == [c] + Join(ps, sep)
  {
    if |ps| > 1 {
      JoinCons([c] + ps[0], ps[1..], sep);
      JoinCons(ps[0], ps[1..], sep);
      assert ps == [ps[0]] + ps[1..];
    }
  }

  /** Joining the pieces of a split with the separator restores the text. */
  lemma {:induction false} JoinSplitOn(s: string, sep: char)
    ensures Join(SplitOn(s, sep), [sep]) == s
    decreases |s|
  {
    if |s| > 0 {
      var rest := SplitOn(s[1..], sep);
      var r := SplitOn(s, sep);
      JoinSplitOn(s[1..], sep);
      if s[0] == sep {
        assert r == [""] + rest;
        JoinCons("", rest, [sep]);
        assert Join(r, [sep]) == [s[0]] + s[1..];
      } else {
        assert r == [[s[0]] + rest[0]] + rest[1..];
        JoinExtendFirst(s[0], rest, [sep]);
        assert Join(r, [sep]) == [s[0]] + s[1..];
      }
      assert s == [s[0]] + s[1..];
    }
  }

  /** A piece free of the separator is not split. */
  lemma {:induction false} SplitOnPiece(p: string, sep: char)
    requires sep !in p
    ensures SplitOn(p, sep) == [p]
    decreases |p|
  {
    if |p| > 0 {
      assert sep !in p[1..] by {
        assert forall x :: x in p[1..] ==> x in p;
      }
      SplitOnPiece(p[1..], sep);
      assert p == [p[0]] + p[1..];
    }
  }

  /** A separator-free piece followed by the separator is split off whole. */
  lemma {:induction false} SplitOnPieceThenSep(p: string, t: string, sep: char)
    requires sep !in p
    ensures SplitOn(p + [sep] + t, sep) == [p] + SplitOn(t, sep)
    decreases |p|
  {
    var s := p + [sep] + t;
    if |p| == 0 {
      assert s[1..] == t;
    } else {
      assert sep !in p[1..] by {
        assert forall x :: x in p[1..] ==> x in p;
      }
      SplitOnPieceThenSep(p[1..], t, sep);
      assert s[1..] == p[1..] + [sep] + t;
      assert p == [p[0]] + p[1..];
    }
  }

  /** A separator-free prefix joins the first piece of what follows it. */
  lemma {:induction false} SplitOnPrefix(p: string, t: string, sep: char)
    requires sep !in p
    ensures var ps := SplitOn(t, sep);
      SplitOn(p + t, sep) == [p + ps[0]] + ps[1..]
    decreases |p|
  {
    var ps := SplitOn(t, sep);
    if |p| == 0 {
      assert p + t == t && p + ps[0] == ps[0];
      assert ps == [ps[0]] + ps[1..];
    } else {
      assert sep !in p[1..] by {
        assert forall x :: x in p[1..] ==> x in p;
      }
      SplitOnPrefix(p[1..], t, sep);
      SplitOnStep(p + t, sep);
      assert (p + t)[1..] == p[1..] + t;
      assert [p[0]] + (p[1..] + ps[0]) == p + ps[0];
    }
  }

  /** A separator between two texts splits exactly there: the pieces are
      those of the first text followed by those of the second. */
  lemma {:induction false} SplitOnAtSep(u: string, v: string, sep: char)
    ensures SplitOn(u + [sep] + v, sep) == SplitOn(u, sep) + SplitOn(v, sep)
    decreases |u|
  {
    var s := u + [sep] + v;
    var w := SplitOn(v, sep);
    if |u| == 0 {
      assert s[0] == sep && s[1..] == v;
      assert SplitOn(s, sep) == [""] + w;
    } else {
      var ru := SplitOn(u[1..], sep);
      assert s[0] == u[0] && s[1..] == u[1..] + [sep] + v;
      SplitOnAtSep(u[1..], v, sep);
      assert SplitOn(s[1..], sep) == ru + w;
      if u[0] == sep {
        assert SplitOn(s, sep) == [""] + (ru + w);
        assert SplitOn(u, sep) == [""] + ru;
        SeqAssoc([""], ru, w);
      } else {
        assert (ru + w)[0] == ru[0];
        assert (ru + w)[1..] == ru[1..] + w;
        assert SplitOn(s, sep) == [[u[0]] + ru[0]] + (ru[1..] + w);
        assert SplitOn(u, sep) == [[u[0]] + ru[0]] + ru[1..];
        SeqAssoc([[u[0]] + ru[0]], ru[1..], w);
      }
    }
  }

  /** One step of a split on a character other than the separator. */
  lemma SplitOnStep(s: string, sep: char)
    requires |s| > 0 && s[0] != sep
    ensures var rest := SplitOn(s[1..], sep);
      SplitOn(s, sep) == [[s[0]] + rest[0]] + rest[1..]
  {
  }

  /** Splitting a join whose pieces are free of the separator gives the
      pieces back. */
  lemma {:induction false} SplitOnJoin(ps: seq<string>, sep: char)
    requires |ps| > 0
    requires forall k :: 0 <= k < |ps| ==> sep !in ps[k]
    ensures SplitOn(Join(ps, [sep]), sep) == ps
    decreases |ps|
  {
    if |ps| == 1 {
      SplitOnPiece(ps[0], sep);
    } else {
      SplitOnJoin(ps[1..], sep);
      SplitOnPieceThenSep(ps[0], Join(ps[1..], [sep]), sep);
      assert ps == [ps[0]] + ps[1..];
    }
  }

  /** An occurrence of a separator-free pattern lies inside a single piece
      of the split. */
  lemma {:induction false} SplitOnKeepsOccurrence(s: string, sep: char, p: string, i: int)
    requires OccursAt(s, p, i)
    requires sep !in p
    ensures exists k :: 0 <= k < |SplitOn(s, sep)| && Contains(SplitOn(s, sep)[k], p)
    decreases |s|
  {
    var r := SplitOn(s, sep);
    if i == 0 {
      PrefixOfFirstPiece(s, sep, p);
      ContainsAt(r[0], p, 0);
    } else {
      OccursShift(s, p, 1, i - 1);
      SplitOnKeepsOccurrence(s[1..], sep, p, i - 1);
      var k :| 0 <= k < |SplitOn(s[1..], sep)| && Contains(SplitOn(s[1..], sep)[k], p);
      ContainsInTail(s, sep, p, k);
    }
  }

  /** A piece of `s[1..]` that contains `p` carries over into a piece of
      `s`. */
  lemma ContainsInTail(s: string, sep: char, p: string, k: nat)
    requires 0 < |s|
    requires k < |SplitOn(s[1..], sep)| && Contains(SplitOn(s[1..], sep)[k], p)
    ensures exists k' :: 0 <= k' < |SplitOn(s, sep)| && Contains(SplitOn(s, sep)[k'], p)
  {
    var r := SplitOn(s, sep);
    var rest := SplitOn(s[1..], sep);
    if s[0] == sep {
      assert r[k + 1] == rest[k];
    } else if k > 0 {
      assert r[k] == rest[k];
    } else {
      assert r[0] == [s[0]] + rest[0];
      ContainsPrepend(s[0], rest[0], p);
    }
  }

  /** Putting a character in front of a text keeps what it contains. */
  lemma ContainsPrepend(c: char, w: string, p: string)
    requires Contains(w, p)
    ensures Contains([c] + w, p)
  {
    var j := Find(w, p, 0);
    assert ([c] + w)[j + 1..j + 1 + |p|] == w[j..j + |p|];
    ContainsAt([c] + w, p, j + 1);
  }

  /** A separator-free prefix of the text is a prefix of the first piece. */
  lemma {:induction false} PrefixOfFirstPiece(s: string, sep: char, p: string)
    requires OccursAt(s, p, 0)
    requires sep !in p
    ensures OccursAt(SplitOn(s, sep)[0], p, 0)
    decreases |s|
  {
    if |p| > 0 {
      var rest := SplitOn(s[1..], sep);
      assert s[0] == p[0];
      assert OccursAt(s[1..], p[1..], 0) by {
        assert s[1..][0..|p| - 1] == s[1..|p|] == p[1..];
      }
      assert sep !in p[1..] by {
        assert forall x :: x in p[1..] ==> x in p;
      }
      PrefixOfFirstPiece(s[1..], sep, p[1..]);
      var r0 := SplitOn(s, sep)[0];
      assert r0 == [s[0]] + rest[0];
      assert r0[..|p|] == [s[0]] + rest[0][..|p| - 1];
    }
  }

  /** Every character of `s` is one the strip removes. */
  predicate AllDropped(s: string, drop: char -> bool) {
    forall k :: 0 <= k < |s| ==> drop(s[k])
  }

  /** The forward scan of a strip: the first index at or after `i` whose
      character is kept, or `|s|`. */
  function LeadEnd(s: string, drop: char -> bool, i: nat): (n: nat)
    requires i <= |s|
    ensures i <= n <= |s|
    ensures forall k :: i <= k < n ==> drop(s[k])
    ensures n < |s| ==> !drop(s[n])
    decreases |s| - i
  {
    if i < |s| && drop(s[i]) then LeadEnd(s, drop, i + 1) else i
  }

  /** The backward scan of a strip, which never passes `lo`: the end of the
      kept part of `s[lo..j]`. */
  function TrailStart(s: string, drop: char -> bool, lo: nat, j: nat): (n: nat)
    requires lo <= j <= |s|
    ensures lo <= n <= j
    ensures forall k :: n <= k < j ==> drop(s[k])
    ensures lo < n ==> !drop(s[n - 1])
    decreases j
  {
    if lo < j && drop(s[j - 1]) then TrailStart(s, drop, lo, j - 1) else j
  }

  /** Number of characters `lstrip` removes from the front of `s`. */
  function StripOffset(s: string, drop: char -> bool): (i: nat)
    ensures i <= |s|
    ensures forall k :: 0 <= k < i ==> drop(s[k])
    ensures i < |s| ==> !drop(s[i])
  {
    LeadEnd(s, drop, 0)
  }

  /** Python's `s.rstrip(chars)`, with the stripped set given as a predicate. */
  function RStripBy(s: string, drop: char -> bool): (r: string)
    ensures |r| <= |s| && r == s[..|r|]
    ensures forall k :: |r| <= k < |s| ==> drop(s[k])
    ensures |r| > 0 ==> !drop(r[|r| - 1])
  {
    s[..TrailStart(s, drop, 0, |s|)]
  }

  /** Python's `s.strip(chars)`: the middle of `s` left once the stripped
      characters are removed from both ends. */
  function StripBy(s: string, drop: char -> bool): (r: string)
    ensures StripOffset(s, drop) + |r| <= |s|
    ensures r == s[StripOffset(s, drop)..StripOffset(s, drop) + |r|]
    ensures forall k :: 0 <= k < StripOffset(s, drop) ==> drop(s[k])
    ensures forall k :: StripOffset(s, drop) + |r| <= k < |s| ==> drop(s[k])
    ensures |r| > 0 ==> !drop(r[0]) && !drop(r[|r| - 1])
  {
    var i := StripOffset(s, drop);
    s[i..TrailStart(s, drop, i, |s|)]
  }

  /** Python's `s.strip()`. */
  function Strip(s: string): string {
    StripBy(s, IsSpace)
  }

  /** Python's `s.rstrip()`. */
  function RStrip(s: string): string {
    RStripBy(s, IsSpace)
  }

  /** The forward scan stops at the first kept character after a stripped
      prefix. */
  lemma StripOffsetLead(lead: string, body: string, drop: char -> bool)
    requires AllDropped(lead, drop)
    requires 0 < |body| && !drop(body[0])
    ensures StripOffset(lead + body, drop) == |lead|
  {
    var s := lead + body;
    assert s[|lead|] == body[0];
    assert forall k :: 0 <= k < |lead| ==> s[k] == lead[k];
  }

  /** Stripping whitespace from a text that starts with whitespace and then a
      non-whitespace character keeps every prefix of the remainder that ends
      in a non-whitespace character. */
  lemma StripKeepsHead(lead: string, body: string, n: nat)
    requires AllDropped(lead, IsSpace)
    requires 0 < n <= |body| && !IsSpace(body[0]) && !IsSpace(body[n - 1])
    ensures |Strip(lead + body)| >= n && Strip(lead + body)[..n] == body[..n]
  {
    var s := lead + body;
    StripOffsetLead(lead, body, IsSpace);
    assert s[|lead| + n - 1] == body[n - 1];
    assert s[|lead|..|lead| + n] == body[..n];
  }

  /** Stripping whitespace from leading whitespace followed by a text whose
      ends are not whitespace gives back exactly that text. */
  lemma StripLead(lead: string, body: string)
    requires AllDropped(lead, IsSpace)
    requires 0 < |body| && !IsSpace(body[0]) && !IsSpace(body[|body| - 1])
    ensures Strip(lead + body) == body
  {
    var s := lead + body;
    StripOffsetLead(lead, body, IsSpace);
    assert s[|s| - 1] == body[|body| - 1];
    assert s[|lead|..] == body;
  }

  /** Python's resolution of a slice bound against a length `n`: negative
      bounds count from the end; both are clamped into `[0, n]`. */
  function SliceBound(i: int, n: nat): (b: nat)
    ensures b <= n
  {
    if i < 0 then (if n + i < 0 then 0 else n + i)
    else if i > n then n
    else i
  }

  /** Python's `s[i:j]`. */
  function Slice(s: string, i: int, j: int): (r: string)
    ensures |r| <= |s|
    ensures 0 <= i <= j <= |s| ==> r == s[i..j]
    ensures 0 <= i && |s| <= j ==> r == s[if i <= |s| then i else |s|..]
    ensures j < 0 && -j <= |s| && 0 <= i ==> r == s[if i <= |s| + j then i else |s| + j..|s| + j]
  {
    var a := SliceBound(i, |s|);
    var b := SliceBound(j, |s|);
    if a < b then s[a..b] else ""
  }
}

=== FILE: records.dfy ===
/** Record assembly in EdgarSearch.py: cutting fixed-width index rows into
    fields, the scan of an index file for 10-K rows, the file name a filing
    is stored under and the parse of that name back into its fields, the
    header and data rows of the keyword tables, and the keyword list given
    on the command line. Upper- and lower-casing are parameters. */
module Records {
  import opened Wrappers
  import opened PyStr
  import Normalizer
  import Locator
  import Counter

  // ---------------------------------------------------------------------
  // Index rows

  /** The column titles whose positions in the header row of an index file
      give the field boundaries. */
  const ColumnTitles: seq<string> := ["Form Type", "Company Name", "CIK", "Date Filed", "File Name"]

  /** Lines 115-119: the position of each column title in the header row,
      -1 for a missing title. */
  function ColumnStarts(header: string): (fb: seq<int>)
    ensures |fb| == |ColumnTitles|
    ensures forall i :: 0 <= i < |fb| ==>
      (fb[i] == -1 && forall j :: 0 <= j ==> !OccursAt(header, ColumnTitles[i], j))
      || (0 <= fb[i] && OccursAt(header, ColumnTitles[i], fb[i]))
    ensures forall i, j :: 0 <= i < |fb| && 0 <= j < fb[i] ==> !OccursAt(header, ColumnTitles[i], j)
  {
    seq(|ColumnTitles|, i requires 0 <= i < |ColumnTitles| => Find(header, ColumnTitles[i], 0))
  }

  predicate IsQuote(c: char) {
    c == '"'
  }

  /** Neither end of `f` is a double quote. */
  predicate Unquoted(f: string) {
    |f| > 0 ==> f[0] != '"' && f[|f| - 1] != '"'
  }

  /** Line 44-45: one field, sliced Python-style, right-stripped of
      whitespace, then stripped of double quotes at both ends. */
  function Field(row: string, b: int, e: int): (f: string)
    ensures Unquoted(f)
  {
    StripBy(RStrip(Slice(row, b, e)), IsQuote)
  }

  /** A column slice that is already clean comes out unchanged. */
  lemma FieldClean(row: string, b: nat, e: nat)
    requires b < e <= |row|
    requires !IsSpace(row[e - 1]) && row[b] != '"' && row[e - 1] != '"'
    ensures Field(row, b, e) == row[b..e]
  {
    var c := row[b..e];
    assert Slice(row, b, e) == c;
    assert RStrip(c) == c by {
      assert c[|c| - 1] == row[e - 1];
    }
    assert StripBy(c, IsQuote) == c by {
      assert c[0] == row[b] && c[|c| - 1] == row[e - 1];
    }
  }

  /** Line 43: the end of column `i` is the start of the next one, or the
      end of the row for the last. */
  function ColumnEnd(row: string, fb: seq<int>, i: nat): int
    requires i < |fb|
  {
    if i + 1 < |fb| then fb[i + 1] else |row|
  }

  /** Lines 43-46: the fields of `zip(fb, fb[1:] + [len(row)])`, one per
      boundary. */
  function Fields(row: string, fb: seq<int>): (fs: seq<string>)
    ensures |fs| == |fb|
    ensures forall i :: 0 <= i < |fb| ==> Unquoted(fs[i])
  {
    seq(|fb|, i requires 0 <= i < |fb| => Field(row, fb[i], ColumnEnd(row, fb, i)))
  }

  /** Field `i` is the cleaned slice between boundary `i` and the next. */
  lemma FieldsAt(row: string, fb: seq<int>, i: nat)
    requires i < |fb|
    ensures Fields(row, fb)[i] == Field(row, fb[i], ColumnEnd(row, fb, i))
  {
  }

  /** `parse_row_to_record` (lines 40-51): the fields, a trailing "0", then
      the filing date moved to position 5 and the year put at position 3.
      The source indexes positions 3 and 5, so it needs five boundaries. */
  function ParseRowToRecord(row: string, fb: seq<int>, year: string): (rec: seq<string>)
    requires |fb| >= 5
    ensures var fs := Fields(row, fb);
      && |rec| == |fb| + 1
      && rec[3] == year
      && rec[5] == fs[3]
      && (forall i :: 0 <= i < |fb| && i != 3 && i != 5 ==> rec[i] == fs[i])
      && (|fb| > 5 ==> rec[|fb|] == "0")
      && (forall i :: 0 <= i <= |fb| && i != 3 ==> Unquoted(rec[i]))
  {
    var record := Fields(row, fb) + ["0"];
    var faod := record[3];
    assert Unquoted("0");
    record[5 := faod][3 := year]
  }

  /** Every record has six fields and the given year in position 3. */
  predicate Shaped(rs: seq<seq<string>>, year: string) {
    forall j :: 0 <= j < |rs| ==> |rs[j]| == 6 && rs[j][3] == year
  }

  lemma ShapedCons(rec: seq<string>, rest: seq<seq<string>>, year: string)
    requires |rec| == 6 && rec[3] == year && Shaped(rest, year)
    ensures Shaped([rec] + rest, year)
  {
    assert forall j :: 1 <= j < |rest| + 1 ==> ([rec] + rest)[j] == rest[j - 1];
  }

  /** Lines 113-127 for one index file: a "Form Type" row sets the column
      boundaries, each following "10-K " row becomes a record, and the first
      other row after a record ends the scan. A "10-K " row before any
      header row has no boundaries to cut with, and the source fails there. */
  function IndexScan(rows: seq<string>, fb: Option<seq<int>>, arrived: bool, year: string): (r: Option<seq<seq<string>>>)
    requires fb.Some? ==> |fb.value| == 5
    ensures r.Some? ==> |r.value| <= |rows|
    ensures r.Some? ==> Shaped(r.value, year)
    ensures (forall k :: 0 <= k < |rows| ==> !StartsWith(rows[k], "10-K ")) ==> r == Some([])
    decreases |rows|
  {
    if |rows| == 0 then Some([])
    else
      var row := rows[0];
      assert forall k :: 1 <= k < |rows| ==> rows[1..][k - 1] == rows[k];
      if StartsWith(row, "Form Type") then
        IndexScan(rows[1..], Some(ColumnStarts(row)), arrived, year)
      else if StartsWith(row, "10-K ") then
        if fb.None? then None
        else
          var rest :- IndexScan(rows[1..], fb, true, year);
          var rec := ParseRowToRecord(row, fb.value, year);
          ShapedCons(rec, rest, year);
          Some([rec] + rest)
      else if arrived then Some([])
      else IndexScan(rows[1..], fb, arrived, year)
  }

  /** Once the column boundaries are known, a block of "10-K " rows becomes
      one record per row, in row order, each cut with those boundaries. */
  lemma {:induction false} ScanTenKBlock(rows: seq<string>, fb: seq<int>, arrived: bool, year: string)
    requires |fb| == 5
    requires forall k :: 0 <= k < |rows| ==> StartsWith(rows[k], "10-K ")
    ensures var r := IndexScan(rows, Some(fb), arrived, year);
      && r.Some? && |r.value| == |rows|
      && forall k :: 0 <= k < |rows| ==> r.value[k] == ParseRowToRecord(rows[k], fb, year)
    decreases |rows|
  {
    if |rows| > 0 {
      var tail := rows[1..];
      assert forall k :: 0 <= k < |tail| ==> tail[k] == rows[k + 1];
      ScanTenKBlock(tail, fb, true, year);
      var rest := IndexScan(tail, Some(fb), true, year).value;
      var r := ScanTenKRow(rows, fb, arrived, year);
      assert r[1..] == rest;
      forall k | 0 <= k < |rows| ensures r[k] == ParseRowToRecord(rows[k], fb, year) {
        if k > 0 {
          assert r[k] == rest[k - 1] && rows[k] == tail[k - 1];
        }
      }
    }
  }

  /** One "10-K " row under known boundaries: its record, then the scan of
      the rows after it. */
  lemma ScanTenKRow(rows: seq<string>, fb: seq<int>, arrived: bool, year: string) returns (r: seq<seq<string>>)
    requires |fb| == 5 && |rows| > 0 && StartsWith(rows[0], "10-K ")
    requires IndexScan(rows[1..], Some(fb), true, year).Some?
    ensures IndexScan(rows, Some(fb), arrived, year) == Some(r)
    ensures |r| > 0 && r[0] == ParseRowToRecord(rows[0], fb, year)
    ensures r[1..] == IndexScan(rows[1..], Some(fb), true, year).value
  {
    StartsWithDiffer(rows[0], "10-K ", "Form Type", 0);
    r := [ParseRowToRecord(rows[0], fb, year)] + IndexScan(rows[1..], Some(fb), true, year).value;
  }

  /** Amended filings ("10-K/A") and "10-K405" rows are not 10-K rows. */
  lemma AmendmentsSkipped(row: string)
    requires StartsWith(row, "10-K/A") || StartsWith(row, "10-K405")
    ensures !StartsWith(row, "10-K ")
  {
    if StartsWith(row, "10-K/A") {
      StartsWithDiffer(row, "10-K/A", "10-K ", 4);
    } else {
      StartsWithDiffer(row, "10-K405", "10-K ", 4);
    }
  }

  // ---------------------------------------------------------------------
  // Paths

  /** The directory part `os.path.join` puts before a relative name: the
      directory itself, followed by a '/' unless it is empty or already ends
      in one. */
  function DirPrefix(dir: string): (d: string)
    ensures |d| > 0 ==> d[|d| - 1] == '/'
    ensures |dir| <= |d| <= |dir| + 1 && d[..|dir|] == dir
  {
    if |dir| == 0 || dir[|dir| - 1] == '/' then dir else dir + "/"
  }

  /** Python's `os.path.join(dir, name)` on POSIX: an absolute name replaces
      the directory; otherwise directory and name are separated by exactly
      one added '/' at most. */
  function JoinPath(dir: string, name: string): (p: string)
    ensures |name| > 0 && name[0] == '/' ==> p == name
    ensures (|name| == 0 || name[0] != '/') ==>
      |name| <= |p| && p[|p| - |name|..] == name && p[..|p| - |name|] == DirPrefix(dir)
  {
    if |name| > 0 && name[0] == '/' then name
    else
      var p := DirPrefix(dir) + name;
      assert p[..|p| - |name|] == DirPrefix(dir);
      p
  }

  /** The index file for a year and quarter (line 64). */
  function IndexFileName(year: string, qtr: string): string {
    year + "_qtr" + qtr + ".index"
  }

  /** Line 111-112 as written: four characters taken after `len(dir) + 1`. */
  function IndexYearAsWritten(dir: string, path: string): (y: string)
    ensures |y| <= 4
  {
    Slice(path, |dir| + 1, |dir| + 1 + 4)
  }

  /** Lines 111-112 as intended: the four characters after the directory
      prefix that `os.path.join` actually produced. */
  function IndexYear(dir: string, path: string): (y: string)
    ensures |y| <= 4
  {
    var p := |DirPrefix(dir)|;
    Slice(path, p, p + 4)
  }

  /** The intended year parse gives back a four-character year for any
      directory. */
  lemma IndexYearRoundTrip(dir: string, year: string, qtr: string)
    requires |year| == 4 && year[0] != '/'
    ensures IndexYear(dir, JoinPath(dir, IndexFileName(year, qtr))) == year
  {
    var name := IndexFileName(year, qtr);
    var pre := DirPrefix(dir);
    assert name[0] == year[0];
    var path := JoinPath(dir, name);
    assert path == path[..|path| - |name|] + path[|path| - |name|..];
    assert path == pre + name;
    assert path[|pre|..|pre| + 4] == name[..4] == year;
  }

  /** The year as written is right for a non-empty directory given without
      a trailing slash. */
  lemma IndexYearRoundTripAsWritten(dir: string, year: string, qtr: string)
    requires |dir| > 0 && dir[|dir| - 1] != '/'
    requires |year| == 4 && year[0] != '/'
    ensures IndexYearAsWritten(dir, JoinPath(dir, IndexFileName(year, qtr))) == year
  {
    IndexYearRoundTrip(dir, year, qtr);
  }

  /** With a directory given with a trailing slash, the year as written is
      shifted by one character: it loses its first digit and picks up the
      '_' that follows it. */
  lemma IndexYearTrailingSlashShifts(dir: string, year: string, qtr: string)
    requires |dir| > 0 && dir[|dir| - 1] == '/'
    requires |year| == 4 && year[0] != '/'
    ensures IndexYearAsWritten(dir, JoinPath(dir, IndexFileName(year, qtr))) == year[1..] + "_"
  {
    var name := IndexFileName(year, qtr);
    assert name[0] == year[0];
    var path := JoinPath(dir, name);
    JoinAfterSlash(dir, name);
    assert path[|dir| + 1..|dir| + 5] == name[1..5];
    assert name[1..5] == year[1..] + "_";
  }

  /** "1994" under "Index/" is read back as "994_". */
  lemma IndexYearTrailingSlash()
    ensures IndexYearAsWritten("Index/", JoinPath("Index/", IndexFileName("1994", "1"))) == "994_"
  {
    IndexYearTrailingSlashShifts("Index/", "1994", "1");
    assert "1994"[1..] + "_" == "994_";
  }

  /** Line 154: spaces and slashes are removed from the company name. */
  function CleanName(name: string): (c: string)
    ensures ' ' !in c && '/' !in c
    ensures forall x :: x in c ==> x in name
    ensures ' ' !in name && '/' !in name ==> c == name
    ensures c == Without(Without(name, ' '), '/')
  {
    var a := Replace(name, " ", "");
    ReplaceDropWithout(name, ' ');
    ReplaceDropWithout(a, '/');
    ReplaceDropChar(name, ' ');
    ReplaceDropChar(a, '/');
    assert ' ' !in name && '/' !in name ==> Replace(a, "/", "") == name by {
      if ' ' !in name && '/' !in name {
        ReplaceAbsentChar(name, ' ', "");
        ReplaceAbsentChar(name, '/', "");
      }
    }
    Replace(a, "/", "")
  }

  /** Line 156: the name a filing is stored under. */
  function TenKFileName(name: string, cik: string, year: string, filed: string): (f: string)
    ensures |f| > 0 && f[0] != '/'
  {
    var c := CleanName(name);
    assert |c| > 0 ==> c[0] in c;
    c + "_" + cik + "_" + year + "_" + filed + ".txt"
  }

  /** Lines 150-156 for one row of the 10-K index file: rows of six fields
      give a file name; others are skipped (empty) or make the source fail
      (any other length). */
  function RowFileName(row: seq<string>): (f: Option<string>)
    ensures f.Some? <==> |row| == 6
    ensures f.Some? ==> f.value == TenKFileName(row[1], row[2], row[3], row[5])
  {
    if |row| == 6 then Some(TenKFileName(row[1], row[2], row[3], row[5])) else None
  }

  /** The file name made from a row of the 10-K index file parses back into
      the row's cleaned company name, CIK, year and filing date, when none
      of them holds '_'. */
  lemma RowFileNameRoundTrip(dir: string, row: seq<string>)
    requires |row| == 6
    requires '_' !in row[1] && '_' !in row[2] && '_' !in row[3] && '_' !in row[5]
    ensures RowFileName(row).Some?
    ensures ParseFileName(dir, JoinPath(dir, RowFileName(row).value))
      == Some(Meta(CleanName(row[1]), row[2], row[3], row[5]))
  {
    FileNameRoundTrip(dir, row[1], row[2], row[3], row[5]);
  }

  /** The identifying fields recovered from a filing's path. */
  datatype Meta = Meta(name: string, cik: string, year: string, filed: string)

  /** Lines 190-194 as written: the path is split on '_' and the name is
      taken from `len(dir) + 1` on. Fewer than four pieces make the source
      fail. */
  function ParseFileNameAsWritten(dir: string, path: string): (m: Option<Meta>)
    ensures m.Some? <==> multiset(path)['_'] >= 3
  {
    var info := SplitOn(path, '_');
    SplitOnCount(path, '_');
    if |info| < 4 then None
    else Some(Meta(Slice(info[0], |dir| + 1, |info[0]|), info[1], info[2], Slice(info[3], 0, -4)))
  }

  /** Lines 190-194 as intended: the directory prefix that `os.path.join`
      produced is removed before the file name is split. */
  function ParseFileName(dir: string, path: string): (m: Option<Meta>)
    ensures m.Some? <==> multiset(Slice(path, |DirPrefix(dir)|, |path|))['_'] >= 3
  {
    var pre := DirPrefix(dir);
    var base := Slice(path, |pre|, |path|);
    var info := SplitOn(base, '_');
    SplitOnCount(base, '_');
    if |info| < 4 then None
    else Some(Meta(info[0], info[1], info[2], Slice(info[3], 0, -4)))
  }

  /** For a non-empty directory given without a trailing slash and holding
      no '_', the parse as written and the intended parse agree on every
      path under it. */
  lemma ParseAgrees(dir: string, base: string)
    requires |dir| > 0 && dir[|dir| - 1] != '/' && '_' !in dir
    ensures ParseFileNameAsWritten(dir, dir + "/" + base) == ParseFileName(dir, dir + "/" + base)
  {
    var pre := dir + "/";
    var path := pre + base;
    assert DirPrefix(dir) == pre;
    assert Slice(path, |pre|, |path|) == base;
    assert '_' !in pre by {
      assert forall x :: x in pre ==> x in dir || x == '/';
    }
    SplitOnPrefix(pre, base, '_');
    var ps := SplitOn(base, '_');
    assert Slice(pre + ps[0], |dir| + 1, |pre + ps[0]|) == ps[0] by {
      assert (pre + ps[0])[|pre|..] == ps[0];
    }
  }

  /** A directory holding '_' is split with the path by the parse as
      written: under "a_b_c_d" the path of "x.txt" parses, where the
      intended parse finds no '_' in the file name and gives `None`. */
  lemma UnderscoreDirectoryParses()
    ensures ParseFileNameAsWritten("a_b_c_d", "a_b_c_d/x.txt") == Some(Meta("", "b", "c", "d/x"))
    ensures ParseFileName("a_b_c_d", "a_b_c_d/x.txt") == None
  {
    UnderscorePathPieces();
    assert Slice("a", 8, 1) == "" && Slice("d/x.txt", 0, -4) == "d/x";
    UnderscoreFileName();
  }

  lemma UnderscorePathPieces()
    ensures SplitOn("a_b_c_d/x.txt", '_') == ["a", "b", "c", "d/x.txt"]
  {
    FourPieces("a", "b", "c", "d/x.txt");
    assert "a" + "_" + "b" + "_" + "c" + "_" + "d/x.txt" == "a_b_c_d/x.txt";
  }

  /** Four pieces free of '_' joined by '_' split back into themselves. */
  lemma FourPieces(a: string, b: string, c: string, d: string)
    requires '_' !in a && '_' !in b && '_' !in c && '_' !in d
    ensures SplitOn(a + "_" + b + "_" + c + "_" + d, '_') == [a, b, c, d]
  {
    Join4(a, b, c, d, "_");
    SplitOnJoin([a, b, c, d], '_');
  }

  lemma UnderscoreFileName()
    ensures ParseFileName("a_b_c_d", "a_b_c_d/x.txt") == None
  {
    assert DirPrefix("a_b_c_d") == "a_b_c_d/";
    assert Slice("a_b_c_d/x.txt", 8, 13) == "x.txt";
    assert multiset("x.txt")['_'] == 0;
  }

  lemma Join4(a: string, b: string, c: string, d: string, sep: string)
    ensures Join([a, b, c, d], sep) == a + sep + b + sep + c + sep + d
  {
    JoinCons(a, [b, c, d], sep);
    JoinCons(b, [c, d], sep);
    JoinCons(c, [d], sep);
    assert [a, b, c, d] == [a] + [b, c, d];
    assert [b, c, d] == [b] + [c, d];
    assert [c, d] == [c] + [d];
  }

  /** The pieces of a stored file name, when no field holds '_'. */
  lemma FileNamePieces(c: string, cik: string, year: string, filed: string)
    requires '_' !in c && '_' !in cik && '_' !in year && '_' !in filed
    ensures SplitOn(c + "_" + cik + "_" + year + "_" + filed + ".txt", '_')
      == [c, cik, year, filed + ".txt"]
    ensures Slice(filed + ".txt", 0, -4) == filed
  {
    var last := filed + ".txt";
    var ps := [c, cik, year, last];
    assert '_' !in last by {
      assert forall x :: x in last ==> x in filed || x in ".txt";
    }
    assert Join(ps, "_") == c + "_" + cik + "_" + year + "_" + last by {
      Join4(c, cik, year, last, "_");
    }
    assert c + "_" + cik + "_" + year + "_" + last == c + "_" + cik + "_" + year + "_" + filed + ".txt";
    SplitOnJoin(ps, '_');
    assert last[..|filed|] == filed;
  }

  /** The intended parse recovers the fields the file name was built from,
      whatever the directory, when no field holds '_'. */
  lemma FileNameRoundTrip(dir: string, name: string, cik: string, year: string, filed: string)
    requires '_' !in name && '_' !in cik && '_' !in year && '_' !in filed
    ensures ParseFileName(dir, JoinPath(dir, TenKFileName(name, cik, year, filed)))
      == Some(Meta(CleanName(name), cik, year, filed))
  {
    var c := CleanName(name);
    var f := TenKFileName(name, cik, year, filed);
    var pre := DirPrefix(dir);
    var path := JoinPath(dir, f);
    assert path == path[..|path| - |f|] + path[|path| - |f|..];
    assert path == pre + f;
    assert Slice(path, |pre|, |path|) == f;
    assert '_' !in c;
    FileNamePieces(c, cik, year, filed);
  }

  /** The parse as written of a path whose pieces hold no '_' takes the
      name from `len(dir) + 1` into the first piece. */
  lemma AsWrittenPieces(dir: string, head: string, cik: string, year: string, filed: string)
    requires '_' !in head && '_' !in cik && '_' !in year && '_' !in filed
    ensures ParseFileNameAsWritten(dir, head + "_" + cik + "_" + year + "_" + filed + ".txt")
      == Some(Meta(Slice(head, |dir| + 1, |head|), cik, year, filed))
  {
    FileNamePieces(head, cik, year, filed);
  }

  /** The parse as written also recovers the fields when the directory is
      non-empty, has no trailing slash and holds no '_'. */
  lemma FileNameRoundTripAsWritten(dir: string, name: string, cik: string, year: string, filed: string)
    requires |dir| > 0 && dir[|dir| - 1] != '/' && '_' !in dir
    requires '_' !in name && '_' !in cik && '_' !in year && '_' !in filed
    ensures ParseFileNameAsWritten(dir, JoinPath(dir, TenKFileName(name, cik, year, filed)))
      == Some(Meta(CleanName(name), cik, year, filed))
  {
    var c := CleanName(name);
    var f := TenKFileName(name, cik, year, filed);
    var path := JoinPath(dir, f);
    var pre := dir + "/";
    var head := pre + c;
    assert Slice(head, |dir| + 1, |head|) == c by {
      assert head[|pre|..] == c;
    }
    assert path == head + "_" + cik + "_" + year + "_" + filed + ".txt" by {
      JoinRelative(dir, f);
      assert DirPrefix(dir) == pre;
      PrependName(pre, c, cik, year, filed);
    }
    assert ParseFileNameAsWritten(dir, path) == Some(Meta(Slice(head, |dir| + 1, |head|), cik, year, filed)) by {
      assert '_' !in head by {
        assert forall x :: x in head ==> x in dir || x == '/' || x in name;
      }
      AsWrittenPieces(dir, head, cik, year, filed);
    }
  }

  /** A relative name is appended to the directory prefix. */
  lemma JoinRelative(dir: string, f: string)
    requires |f| > 0 && f[0] != '/'
    ensures JoinPath(dir, f) == DirPrefix(dir) + f
  {
    var p := JoinPath(dir, f);
    assert p == p[..|p| - |f|] + p[|p| - |f|..];
  }

  /** A relative name joined to a directory that already ends in '/'. */
  lemma JoinAfterSlash(dir: string, f: string)
    requires |dir| > 0 && dir[|dir| - 1] == '/'
    requires |f| > 0 && f[0] != '/'
    ensures JoinPath(dir, f) == dir + f
  {
    JoinRelative(dir, f);
  }

  /** A name with no space or slash is stored unchanged. */
  lemma CleanFileName(name: string, cik: string, year: string, filed: string)
    requires ' ' !in name && '/' !in name
    ensures TenKFileName(name, cik, year, filed) == name + "_" + cik + "_" + year + "_" + filed + ".txt"
  {
  }

  /** With a trailing slash on the directory, the parse as written loses
      the first character of every clean name. */
  lemma FileNameTrailingSlashDrops(dir: string, name: string, cik: string, year: string, filed: string)
    requires |dir| > 0 && dir[|dir| - 1] == '/' && '_' !in dir
    requires 0 < |name| && ' ' !in name && '/' !in name && '_' !in name
    requires '_' !in cik && '_' !in year && '_' !in filed
    ensures ParseFileNameAsWritten(dir, JoinPath(dir, TenKFileName(name, cik, year, filed)))
      == Some(Meta(name[1..], cik, year, filed))
  {
    var head := dir + name;
    assert Slice(head, |dir| + 1, |head|) == name[1..] by {
      SliceAfterDir(dir, name);
    }
    var path := JoinPath(dir, TenKFileName(name, cik, year, filed));
    assert path == head + "_" + cik + "_" + year + "_" + filed + ".txt" by {
      CleanFileName(name, cik, year, filed);
      JoinAfterSlash(dir, TenKFileName(name, cik, year, filed));
      PrependName(dir, name, cik, year, filed);
    }
    assert ParseFileNameAsWritten(dir, path) == Some(Meta(Slice(head, |dir| + 1, |head|), cik, year, filed)) by {
      assert '_' !in head by {
        assert forall x :: x in head ==> x in dir || x in name;
      }
      AsWrittenPieces(dir, head, cik, year, filed);
    }
  }

  lemma SliceAfterDir(dir: string, name: string)
    requires 0 < |name|
    ensures Slice(dir + name, |dir| + 1, |dir + name|) == name[1..]
  {
    assert (dir + name)[|dir| + 1..] == name[1..];
  }

  lemma AppendAssoc(a: string, b: string, c: string)
    ensures a + (b + c) == (a + b) + c
  {
  }

  /** Putting the directory in front of a stored file name. */
  lemma PrependName(dir: string, name: string, cik: string, year: string, filed: string)
    ensures dir + (name + "_" + cik + "_" + year + "_" + filed + ".txt")
      == dir + name + "_" + cik + "_" + year + "_" + filed + ".txt"
  {
    AppendAssoc(dir, name, "_");
    AppendAssoc(dir, name + "_", cik);
    AppendAssoc(dir, name + "_" + cik, "_");
    AppendAssoc(dir, name + "_" + cik + "_", year);
    AppendAssoc(dir, name + "_" + cik + "_" + year, "_");
    AppendAssoc(dir, name + "_" + cik + "_" + year + "_", filed);
    AppendAssoc(dir, name + "_" + cik + "_" + year + "_" + filed, ".txt");
  }

  /** "ACME" filed under "10K/" is read back as "CME". */
  lemma FileNameTrailingSlash()
    ensures ParseFileNameAsWritten("10K/", JoinPath("10K/", TenKFileName("ACME", "1", "1994", "1994-03-01")))
      == Some(Meta("CME", "1", "1994", "1994-03-01"))
  {
    TrailingSlashFields();
    FileNameTrailingSlashDrops("10K/", "ACME", "1", "1994", "1994-03-01");
  }

  lemma TrailingSlashFields()
    ensures '_' !in "10K/" && ' ' !in "ACME" && '/' !in "ACME" && '_' !in "ACME"
    ensures '_' !in "1" && '_' !in "1994" && '_' !in "1994-03-01"
    ensures "ACME"[1..] == "CME"
  {
  }

  // ---------------------------------------------------------------------
  // Tables

  /** A cell of an output table. */
  datatype Cell = Text(text: string) | Count(count: nat)

  const FixedColumns: seq<string> := ["NAME", "CIK", "YEAR", "FILEDASOFDATE", "TOTALWORDS"]

  /** Lines 185-187: the fixed column names, then each keyword upper-cased. */
  function Header(keywords: seq<string>, upper: string -> string): (h: seq<Cell>)
    ensures |h| == |FixedColumns| + |keywords|
    ensures forall i :: 0 <= i < |FixedColumns| ==> h[i] == Text(FixedColumns[i])
    ensures forall i :: 0 <= i < |keywords| ==> h[|FixedColumns| + i] == Text(upper(keywords[i]))
  {
    seq(|FixedColumns|, i requires 0 <= i < |FixedColumns| => Text(FixedColumns[i]))
      + seq(|keywords|, i requires 0 <= i < |keywords| => Text(upper(keywords[i])))
  }

  /** Lines 195 and 225-232: the identifying fields, the filing date, the
      total word count of `text` and the keyword counts of its lower-cased
      form. */
  function DataRow(meta: Meta, text: string, keywords: seq<string>, lower: string -> string): (row: seq<Cell>)
    ensures |row| == |FixedColumns| + |keywords|
    ensures row[..4] == [Text(meta.name), Text(meta.cik), Text(meta.year), Text(meta.filed)]
    ensures row[4] == Count(Counter.TotalWords(text))
    ensures forall i :: 0 <= i < |keywords| ==>
      row[|FixedColumns| + i] == Count(Counter.CountKeyword(lower(text), keywords[i]))
  {
    [Text(meta.name), Text(meta.cik), Text(meta.year), Text(meta.filed), Count(Counter.TotalWords(text))]
      + seq(|keywords|, i requires 0 <= i < |keywords| => Count(Counter.CountKeyword(lower(text), keywords[i])))
  }

  /** Every data row lines up with the header: column `5 + i` of the header
      names keyword `i` and the same column of the row counts it. */
  lemma ColumnsAlign(meta: Meta, text: string, keywords: seq<string>, lower: string -> string,
                     upper: string -> string, i: nat)
    requires i < |keywords|
    ensures |Header(keywords, upper)| == |DataRow(meta, text, keywords, lower)|
    ensures Header(keywords, upper)[5 + i] == Text(upper(keywords[i]))
    ensures DataRow(meta, text, keywords, lower)[5 + i] == Count(Counter.CountKeyword(lower(text), keywords[i]))
  {
    assert |FixedColumns| == 5;
    var h := Header(keywords, upper);
    var row := DataRow(meta, text, keywords, lower);
    assert h[|FixedColumns| + i] == Text(upper(keywords[i]));
    assert row[|FixedColumns| + i] == Count(Counter.CountKeyword(lower(text), keywords[i]));
  }

  /** Every row of a table has `w` cells. */
  predicate Aligned(rs: seq<seq<Cell>>, w: nat) {
    forall j :: 0 <= j < |rs| ==> |rs[j]| == w
  }

  lemma AlignedConcat(xs: seq<seq<Cell>>, ys: seq<seq<Cell>>, w: nat)
    requires Aligned(xs, w) && Aligned(ys, w)
    ensures Aligned(xs + ys, w)
  {
    assert forall j :: |xs| <= j < |xs| + |ys| ==> (xs + ys)[j] == ys[j - |xs|];
  }

  /** One stored filing: its path and its raw text. */
  datatype Doc = Doc(path: string, raw: string)

  /** Lines 195-233 for one filing of the MD&A tool: a row exactly when the
      final section is non-empty. */
  function MdaRow(meta: Meta, raw: string, keywords: seq<string>,
                  head: string -> string, lower: string -> string): (row: Option<seq<Cell>>)
    ensures var x := Locator.ExtractSection(Normalizer.Normalize(head, raw));
      && (row.Some? <==> x.section != "")
      && (row.Some? ==>
        && x.section[..6] == "ITEM 7"
        && |row.value| == |FixedColumns| + |keywords|
        && row.value[..4] == [Text(meta.name), Text(meta.cik), Text(meta.year), Text(meta.filed)]
        && row.value[4] == Count(Counter.TotalWords(x.section))
        && forall i :: 0 <= i < |keywords| ==>
             row.value[|FixedColumns| + i] == Count(Counter.CountKeyword(lower(x.section), keywords[i])))
  {
    var x := Locator.ExtractSection(Normalizer.Normalize(head, raw));
    if x.section != "" then Some(DataRow(meta, x.section, keywords, lower)) else None
  }

  /** Every path parses into its identifying fields. */
  predicate AllNamed(dir: string, docs: seq<Doc>) {
    forall i :: 0 <= i < |docs| ==> ParseFileName(dir, docs[i].path).Some?
  }

  lemma AllNamedCons(dir: string, docs: seq<Doc>)
    requires |docs| > 0
    ensures AllNamed(dir, docs) <==> ParseFileName(dir, docs[0].path).Some? && AllNamed(dir, docs[1..])
  {
    assert forall i :: 1 <= i < |docs| ==> docs[1..][i - 1] == docs[i];
  }

  /** The row of one filing as a list of at most one row. */
  function RowList(row: Option<seq<Cell>>, w: nat): (rs: seq<seq<Cell>>)
    requires row.Some? ==> |row.value| == w
    ensures |rs| <= 1 && Aligned(rs, w)
    ensures |rs| == 1 <==> row.Some?
  {
    if row.Some? then [row.value] else []
  }

  /** Lines 189-233: the rows of the MD&A table, in file order. A path that
      does not split into four pieces makes the whole run fail. */
  function MdaRows(dir: string, docs: seq<Doc>, keywords: seq<string>,
                   head: string -> string, lower: string -> string): (r: Option<seq<seq<Cell>>>)
    ensures r.Some? <==> AllNamed(dir, docs)
    ensures r.Some? ==> |r.value| <= |docs|
    ensures r.Some? ==> Aligned(r.value, |FixedColumns| + |keywords|)
  {
    if |docs| == 0 then Some([])
    else
      AllNamedCons(dir, docs);
      var meta := ParseFileName(dir, docs[0].path);
      if meta.None? then None
      else
        var rest :- MdaRows(dir, docs[1..], keywords, head, lower);
        var first := RowList(MdaRow(meta.value, docs[0].raw, keywords, head, lower), |FixedColumns| + |keywords|);
        AlignedConcat(first, rest, |FixedColumns| + |keywords|);
        Some(first + rest)
  }

  /** The concatenation of a list of lists, in order. */
  function Flatten<T>(xss: seq<seq<T>>): (r: seq<T>)
    ensures |xss| == 0 ==> r == []
  {
    if |xss| == 0 then [] else xss[0] + Flatten(xss[1..])
  }

  /** The rows each filing contributes to the MD&A table, one list per
      filing, in file order. */
  function DocRows(dir: string, docs: seq<Doc>, keywords: seq<string>,
                   head: string -> string, lower: string -> string): (rs: seq<seq<seq<Cell>>>)
    ensures |rs| == |docs|
    decreases |docs|
  {
    if |docs| == 0 then [] else [DocRow(dir, docs[0], keywords, head, lower)] + DocRows(dir, docs[1..], keywords, head, lower)
  }

  /** The list for filing `j` holds that filing's rows. */
  lemma {:induction false} DocRowsAt(dir: string, docs: seq<Doc>, keywords: seq<string>,
                                     head: string -> string, lower: string -> string, j: nat)
    requires j < |docs|
    ensures DocRows(dir, docs, keywords, head, lower)[j] == DocRow(dir, docs[j], keywords, head, lower)
    decreases j
  {
    if j > 0 {
      DocRowsAt(dir, docs[1..], keywords, head, lower, j - 1);
      assert docs[1..][j - 1] == docs[j];
    }
  }

  /** The rows one filing with a parsable path contributes to the MD&A
      table: its row, if its section is non-empty. */
  function DocRow(dir: string, doc: Doc, keywords: seq<string>,
                  head: string -> string, lower: string -> string): (rs: seq<seq<Cell>>)
    ensures |rs| <= 1
  {
    match ParseFileName(dir, doc.path)
    case None => []
    case Some(meta) => RowList(MdaRow(meta, doc.raw, keywords, head, lower), |FixedColumns| + |keywords|)
  }

  /** The MD&A rows are the rows of each filing, concatenated in file order:
      filing `j`'s row, if it has one, comes after those of every earlier
      filing. */
  lemma {:induction false} MdaRowsInOrder(dir: string, docs: seq<Doc>, keywords: seq<string>,
                                          head: string -> string, lower: string -> string)
    requires AllNamed(dir, docs)
    ensures MdaRows(dir, docs, keywords, head, lower) == Some(Flatten(DocRows(dir, docs, keywords, head, lower)))
    decreases |docs|
  {
    if |docs| > 0 {
      AllNamedCons(dir, docs);
      MdaRowsInOrder(dir, docs[1..], keywords, head, lower);
      var all := DocRows(dir, docs, keywords, head, lower);
      assert Flatten(all) == all[0] + Flatten(all[1..]);
      MdaRowsCons(dir, docs, keywords, head, lower);
    }
  }

  /** The MD&A rows of a non-empty list: the first filing's rows, then the
      rows of the others. */
  lemma MdaRowsCons(dir: string, docs: seq<Doc>, keywords: seq<string>,
                    head: string -> string, lower: string -> string)
    requires |docs| > 0 && AllNamed(dir, docs)
    ensures AllNamed(dir, docs[1..])
    ensures MdaRows(dir, docs, keywords, head, lower)
      == Some(DocRow(dir, docs[0], keywords, head, lower) + MdaRows(dir, docs[1..], keywords, head, lower).value)
  {
    AllNamedCons(dir, docs);
  }

  /** The MD&A table: header, then one row per filing with a section. */
  function MdaTable(dir: string, docs: seq<Doc>, keywords: seq<string>, head: string -> string,
                    lower: string -> string, upper: string -> string): (t: Option<seq<seq<Cell>>>)
    ensures t.Some? <==> AllNamed(dir, docs)
    ensures t.Some? ==> 1 <= |t.value| <= |docs| + 1
    ensures t.Some? ==> t.value[0] == Header(keywords, upper)
    ensures t.Some? ==> t.value[1..] == MdaRows(dir, docs, keywords, head, lower).value
    ensures t.Some? ==> Aligned(t.value, |FixedColumns| + |keywords|)
  {
    var rows :- MdaRows(dir, docs, keywords, head, lower);
    AlignedConcat([Header(keywords, upper)], rows, |FixedColumns| + |keywords|);
    Some([Header(keywords, upper)] + rows)
  }

  /** The data row of one filing of the whole-filing table, counted over its
      whole normalized text. */
  function FilingRow(dir: string, doc: Doc, keywords: seq<string>,
                     head: string -> string, lower: string -> string): seq<Cell>
    requires ParseFileName(dir, doc.path).Some?
  {
    DataRow(ParseFileName(dir, doc.path).value, Normalizer.Normalize(head, doc.raw), keywords, lower)
  }

  /** Lines 253-283: the rows of the whole-filing table, one per filing in
      file order, counting over the whole normalized text. A path that does
      not split into four pieces makes the whole run fail. */
  function TenKRows(dir: string, docs: seq<Doc>, keywords: seq<string>,
                    head: string -> string, lower: string -> string): (r: Option<seq<seq<Cell>>>)
    ensures r.Some? <==> AllNamed(dir, docs)
    ensures r.Some? ==> |r.value| == |docs|
    ensures r.Some? ==> forall j :: 0 <= j < |docs| ==>
      var m := ParseFileName(dir, docs[j].path).value;
      var t := Normalizer.Normalize(head, docs[j].raw);
      && |r.value[j]| == |FixedColumns| + |keywords|
      && r.value[j][..4] == [Text(m.name), Text(m.cik), Text(m.year), Text(m.filed)]
      && r.value[j][4] == Count(Counter.TotalWords(t))
      && forall i :: 0 <= i < |keywords| ==>
           r.value[j][|FixedColumns| + i] == Count(Counter.CountKeyword(lower(t), keywords[i]))
  {
    if AllNamed(dir, docs) then
      Some(seq(|docs|, j requires 0 <= j < |docs| => FilingRow(dir, docs[j], keywords, head, lower)))
    else None
  }

  // ---------------------------------------------------------------------
  // Keyword list

  /** Lines 388-392: the lower-cased argument with '_' read as a space, split
      on commas. */
  function ParseKeywords(arg: string, lower: string -> string): (ks: seq<string>)
    ensures |ks| == multiset(lower(arg))[','] + 1
    ensures forall i :: 0 <= i < |ks| ==> '_' !in ks[i] && ',' !in ks[i]
    ensures Join(ks, ",") == Replace(lower(arg), "_", " ")
  {
    var s := Replace(lower(arg), "_", " ");
    assert "_" == ['_'] && " " == [' '];
    ReplaceCharMap(lower(arg), '_', ' ');
    ReplaceCharCount(lower(arg), '_', ' ');
    assert multiset(s)[','] == multiset(lower(arg))[','] by {
      CommaCount(lower(arg), s);
    }
    SplitOnCount(s, ',');
    SplitOnChars(s, ',', '_');
    JoinSplitOn(s, ',');
    SplitOn(s, ',')
  }

  /** A character-wise map that fixes ',' keeps the number of commas. */
  lemma {:induction false} CommaCount(a: string, b: string)
    requires |a| == |b|
    requires forall i :: 0 <= i < |a| ==> (a[i] == ',' <==> b[i] == ',')
    ensures multiset(a)[','] == multiset(b)[',']
    decreases |a|
  {
    if |a| > 0 {
      CommaCount(a[1..], b[1..]);
      assert a == [a[0]] + a[1..];
      assert b == [b[0]] + b[1..];
    }
  }
}

=== FILE: wrappers.dfy ===
/** Failure-compatible optional value, used where the program either raises or
    skips a document. */
module Wrappers {

  datatype Option<+T> = None | Some(value: T) {

    predicate IsFailure() {
      None?
    }

    function PropagateFailure<U>(): Option<U>
      requires None?
    {
      None
    }

    function Extract(): T
      requires Some?
    {
      value
    }
  }
}
